=== FILE: README.md ===
# pyrpc, modelled in Dafny

pyrpc is a small Python RPC framework in two generations.

- The HTTP generation (`pyrpc/`) sends a pickled `RpcRequest` by HTTP POST. The server looks the service up in a process-wide `LocalRegistry`, calls the named method, and answers 200 or 500 with a pickled `RpcResponse`.
- The core generation (`pyrpc_core/`) has four parts:
  - a binary wire message: a 20-byte big-endian header followed by the body;
  - service registries: one in memory, and one backed by Redis with heartbeat keys;
  - factories that choose a registry by name and a serializer by tag;
  - bootstraps that register providers, and subscribe consumers, at start and undo that at stop.

This project models those parts as immutable values and pure functions, with a few methods where a loop is the natural form. It proves the rules each part follows.

| file | module | models |
|---|---|---|
| `wrappers.dfy` | `Wrappers`, `Exceptions` | Option/Result/Outcome; the Python exceptions the code raises |
| `bytes.dfy` | `Bytes` | bytes, big-endian unsigned integers, the signed one-byte format `'b'` |
| `text.dfy` | `Text` | `str.lower` (ASCII), `str(int)`, `int(str)` |
| `protocol_constants.dfy` | `ProtocolConstants` | the protocol's tags, magic number and version |
| `protocol_message.dfy` | `ProtocolMessage` | `ProtocolMessage.to_bytes` / `from_bytes` / `get_header_length` |
| `service_instance.dfy` | `ServiceInstances` | `ServiceInstance` (service name, host, port, metadata) |
| `memory_registry.dfy` | `MemoryRegistry`, `MemoryRegistryAsWritten` | `MemoryRegistry` |
| `redis_registry.dfy` | `RedisRegistry` | `RedisRegistry` over an abstract key-value store |
| `registry_factory.dfy` | `RegistryFactory` | `RegistryFactory.get_registry` |
| `serializer_factory.dfy` | `SerializerFactory` | `SerializerFactory.get_serializer` and its cache |
| `keyed_seqs.dfy` | `KeyedSeqs` | the name-keyed dicts both bootstraps keep, and the loops over their values |
| `provider_bootstrap.dfy` | `ProviderBootstrap` | `ProviderBootstrap.add_service` / `start` / `stop` |
| `consumer_bootstrap.dfy` | `ConsumerBootstrap` | `ConsumerBootstrap.add_service` / `start` / `stop` / `get_service` |
| `local_registry.dfy` | `LocalRegistries` | `pyrpc.registry.LocalRegistry` |
| `rpc_model.dfy` | `RpcModel` | `RpcRequest`, `RpcResponse` |
| `rpc_server.dfy` | `RpcServer` | the decisions made by `RpcHandler.do_POST` |

## What the codec does not check

`protocol_message.py` departs from its own comments in four ways. The model follows the code in each case:

- The four one-byte header fields use the signed format `'b'`. Each must lie in -128..127, and decoding returns -128..127. The code comment calls them unsigned.
- Decoding does not check the magic number or the version.
- Decoding does not check `body_length` against the bytes present. A short body is truncated silently. Bytes past `20 + body_length` are ignored.
- Encoding does not check `body_length` against `len(body)`.

Other behaviour the model takes from the code:

- `MemoryRegistry.unregister` returns True whenever the service name is known, even if that instance was never registered.
- `RedisRegistry` cannot be constructed: `__init__` calls `_start_heartbeat_check`, but only `_start_heartbbeat_check` is defined. The registry factory has no `'redis'` entry either. The model describes the operations as they would behave once the object exists.

## Model

| member | source | states |
|---|---|---|
| Bytes.FromBigEndianOfBigEndian | pyrpc_core/protocol/protocol_message.py:31-40 | an n-byte big-endian field reads back as the unsigned value written, for every value below 256^n |
| Bytes.BigEndianOfFromBigEndian | pyrpc_core/protocol/protocol_message.py:56-57 | every n-byte field is the encoding of the value it decodes to, so decoding loses nothing |
| Bytes.SignedByte | pyrpc_core/protocol/protocol_message.py:32 | format `'b'` stores -128..127 as two's complement: non-negative values as themselves, negative ones plus 256 |
| Bytes.FromSignedByte | pyrpc_core/protocol/protocol_message.py:57 | unpacking `'b'` yields -128..127: bytes below 128 as themselves, others minus 256 |
| Bytes.SignedByteRoundTrip | pyrpc_core/protocol/protocol_message.py:31-40 | packing then unpacking a signed byte is the identity in both directions |
| ProtocolConstants.SerializerTagsDistinct | pyrpc_core/protocol/protocol_constants.py:11-13 | the JDK, JSON and KRYO tags are three distinct values; there is no YAML tag |
| ProtocolConstants.ConstantsFitHeader | pyrpc_core/protocol/protocol_constants.py:7-23 | the magic number fits the 4-byte unsigned field, and the version and every message, serializer and compressor tag fit the signed one-byte fields |
| ProtocolMessage.HeaderLength | pyrpc_core/protocol/protocol_message.py:76-77 | the header `>IbbbbQI` is 20 bytes long |
| ProtocolMessage.PackHeader | pyrpc_core/protocol/protocol_message.py:31-40 | the 20-byte header holds, in order and big-endian, magic (4 bytes), version, serializer, message type, compressor (1 signed byte each), request id (8) and body length (4) |
| ProtocolMessage.ToBytes | pyrpc_core/protocol/protocol_message.py:20-44 | encoding succeeds exactly when every field is in range, else a struct error; the output is the header followed by the body, and the body is written only when non-empty and body_length > 0 |
| ProtocolMessage.FromBytes | pyrpc_core/protocol/protocol_message.py:46-73 | decoding fails exactly on fewer than 20 bytes; fields are read from their offsets; the body is None exactly when body_length is 0, and otherwise the bytes after the header, cut at body_length |
| ProtocolMessage.RoundTrip | pyrpc_core/protocol/protocol_message.py:20-73 | decode(encode(m)) == m for every in-range message whose non-empty body has length body_length |
| ProtocolMessage.ConstantsFrameRoundTrip | pyrpc_core/protocol/protocol_constants.py:7-23 | a frame built from the protocol's magic number, version and defined tags, with body_length set from the body, always encodes and decodes back to itself |
| ProtocolMessage.HeaderOfDecoded | pyrpc_core/protocol/protocol_message.py:31-40 | the fields decoded from any 20 bytes pack back to those same 20 bytes |
| ProtocolMessage.EncodeOfDecode | pyrpc_core/protocol/protocol_message.py:20-73 | every buffer of at least 20 bytes decodes, and re-encoding gives back exactly the bytes the decoder consumed: the header and the body cut at body_length |
| ProtocolMessage.TrailingBytesIgnored | pyrpc_core/protocol/protocol_message.py:59-62 | bytes beyond 20 + body_length do not change the decoded message |
| ProtocolMessage.MagicNotValidated | pyrpc_core/protocol/protocol_message.py:56-57 | twenty zero bytes decode to a message with magic 0 and no body: the magic is not checked |
| ProtocolMessage.UncheckedBodyLength | pyrpc_core/protocol/protocol_message.py:42-44 | a message claiming body length 1 with a 2-byte body encodes both bytes but decodes to a 1-byte body |
| ServiceInstances.NewInstance | pyrpc_core/bootstrap/provider_bootstrap.py:88-92 | an instance built without metadata has empty metadata |
| MemoryRegistry.Empty | pyrpc_core/registry/memory_registry.py:12-15 | a new registry knows no service name and no listener name, so it lists nothing, notifies no one, and `unregister` returns False for every instance |
| MemoryRegistry.Register | pyrpc_core/registry/memory_registry.py:17-22 | (intended) returns True, adds the instance to its name's set, makes the name known and keeps every other name and its set, leaves the listeners alone, and calls the name's listeners with the updated set (`_notify_listeners`, lines 48-55, as the `notified` record) |
| MemoryRegistry.Unregister | pyrpc_core/registry/memory_registry.py:24-30 | returns True exactly when the name is known, removes the instance, keeps the set of known names, and calls the name's listeners with the updated set; for an unknown name, changes nothing and calls no one |
| MemoryRegistry.GetInstance | pyrpc_core/registry/memory_registry.py:35-37 | None exactly when the name lists nothing, otherwise some listed instance |
| MemoryRegistry.Subscribe | pyrpc_core/registry/memory_registry.py:39-42 | adds the listener for that name only; services unchanged |
| MemoryRegistry.Unsubscribe | pyrpc_core/registry/memory_registry.py:44-46 | removes every listener of that name only; services unchanged |
| MemoryRegistry.SubscribeThenNotified | pyrpc_core/registry/memory_registry.py:17-55 | a subscribed callback is among those notified by the next register and unregister under its name; after `unsubscribe` a register or unregister notifies no one |
| MemoryRegistry.RegisterIdempotent | pyrpc_core/registry/memory_registry.py:14-21 | registering the same instance twice gives the same services as once |
| MemoryRegistry.RegisterThenListed | test_pyrpc_core/test_registry.py:18-19 | after register(i), i is listed under its name |
| MemoryRegistry.RegisterThenUnregister | test_pyrpc_core/test_registry.py:18-22 | register then unregister of an instance new to its name restores that name's set; both calls return True |
| MemoryRegistry.RegisterUnregisterScenario | test_pyrpc_core/test_registry.py:11-22 | on a new registry: register returns True and lists one instance; unregister returns True and lists none |
| MemoryRegistry.TwoInstancesListed | test_pyrpc_core/test_registry.py:24-39 | two instances of one service on different ports are both listed, so a pick is one of them |
| MemoryRegistry.PickAfterUnregister | pyrpc_core/registry/memory_registry.py:24-37 | after unregistering i, a pick is never i |
| MemoryRegistry.RegisterKeepsConsistent | pyrpc_core/registry/memory_registry.py:17-22 | register keeps every instance filed under its own service name |
| MemoryRegistry.UnregisterKeepsConsistent | pyrpc_core/registry/memory_registry.py:24-30 | unregister keeps every instance filed under its own service name |
| MemoryRegistry.ListedUnderOwnName | pyrpc_core/registry/memory_registry.py:32-33 | `list_instances` of a consistent registry yields only instances of the name asked for, and nothing for a name never registered |
| MemoryRegistry.UnregisterKeepsNameKnown | pyrpc_core/registry/memory_registry.py:26-29 | unregister discards from the set but keeps the name, so a second unregister under that name also returns True |
| MemoryRegistryAsWritten.Register | pyrpc_core/registry/memory_registry.py:17-22 | (as written) returns None and adds the service name, not the instance, to the set |
| MemoryRegistryAsWritten.Unregister | pyrpc_core/registry/memory_registry.py:24-30 | (as written) removes only the instance itself, so a stored name is never removed |
| MemoryRegistryAsWritten.RegisterUnregisterScenarioFails | test_pyrpc_core/test_registry.py:18-22 | as written, register does not return True, and after unregister the name's list still has one member |
| RedisRegistry.ServiceKey | pyrpc_core/registry/redis_registry.py:96-97 | the service key is `pyrpc:service:` followed by the name |
| RedisRegistry.InstanceKey | pyrpc_core/registry/redis_registry.py:99-100 | the instance key is the host, a colon, and the decimal port |
| RedisRegistry.HeartbeatKey | pyrpc_core/registry/redis_registry.py:102-103 | the heartbeat key is `pyrpc:heartbeat:` followed by the instance key |
| RedisRegistry.InstanceKeyInjective | pyrpc_core/registry/redis_registry.py:99-100 | distinct (host, port) pairs get distinct instance keys, because the printed port never holds a colon |
| RedisRegistry.HeartbeatKeyPerEndpoint | pyrpc_core/registry/redis_registry.py:99-103 | two instances share a heartbeat key exactly when they share host and port, whatever their service |
| RedisRegistry.HSet | pyrpc_core/registry/redis_registry.py:40 | HSET replaces the field's value or adds the field, and keeps every other field |
| RedisRegistry.HDel | pyrpc_core/registry/redis_registry.py:58 | HDEL removes the field and keeps every other field |
| RedisRegistry.LiveInstances | pyrpc_core/registry/redis_registry.py:72-80 | an instance is listed exactly when its field is in the hash and its heartbeat key exists |
| RedisRegistry.ListInstances | pyrpc_core/registry/redis_registry.py:66-83 | without a store failure, lists exactly the hash entries whose heartbeat exists; a failure at the start lists nothing |
| RedisRegistry.FailureTruncatesListing | pyrpc_core/registry/redis_registry.py:81-83 | a store failure part-way returns a prefix of the full listing |
| RedisRegistry.GetInstance | pyrpc_core/registry/redis_registry.py:85-87 | the first listed instance, or None when nothing is listed |
| RedisRegistry.Register | pyrpc_core/registry/redis_registry.py:28-50 | on success returns True, writes the hash entry and a 30-second heartbeat together, keeps every other field of the hash and every other heartbeat with its TTL, adds nothing else, and touches no other service hash; on failure returns False and changes nothing |
| RedisRegistry.Unregister | pyrpc_core/registry/redis_registry.py:52-64 | on success returns True, removes exactly that endpoint's hash entry and its heartbeat, and keeps every other field, heartbeat and TTL and every other service hash; on failure returns False and changes nothing |
| RedisRegistry.Subscribe | pyrpc_core/registry/redis_registry.py:89-91 | the body is `pass`: the store is unchanged, so no listing or TTL changes |
| RedisRegistry.Unsubscribe | pyrpc_core/registry/redis_registry.py:93-94 | the body is `pass`: the store is unchanged, so no listing or TTL changes |
| RedisRegistry.Tick | pyrpc_core/registry/redis_registry.py:41-45 | time passing keeps the hashes, drops exactly the heartbeats whose TTL runs out, and counts the others down by the time passed |
| RedisRegistry.TickAdditive | pyrpc_core/registry/redis_registry.py:41-45 | letting a and then b seconds pass expires and counts down exactly as letting a + b pass |
| RedisRegistry.RegisterPreservesWellFormed | pyrpc_core/registry/redis_registry.py:28-50 | register keeps every hash free of duplicate fields, with each field the instance key of its own value |
| RedisRegistry.UnregisterPreservesWellFormed | pyrpc_core/registry/redis_registry.py:52-64 | unregister keeps the same store invariant |
| RedisRegistry.RegisterThenListed | pyrpc_core/registry/redis_registry.py:28-80 | a successful register makes the instance listed |
| RedisRegistry.ListedIsAlive | pyrpc_core/registry/redis_registry.py:72-80 | every listed instance has its heartbeat key present |
| RedisRegistry.UnregisterThenNotListed | pyrpc_core/registry/redis_registry.py:52-80 | after a successful unregister, no instance at that host and port is listed under the service |
| RedisRegistry.UnregisterHidesSharedEndpoint | pyrpc_core/registry/redis_registry.py:99-106 | unregistering one service also hides a different service at the same host and port, because they share the heartbeat |
| RedisRegistry.ListedEntry | pyrpc_core/registry/redis_registry.py:72-80 | every listed instance comes from a live hash entry keyed by its own host and port |
| RedisRegistry.EntryListed | pyrpc_core/registry/redis_registry.py:72-80 | every live hash entry is listed |
| RedisRegistry.RegisterKeepsEntry | pyrpc_core/registry/redis_registry.py:39-46 | register keeps every other hash entry and every existing heartbeat |
| RedisRegistry.RegisterKeepsOthersListed | pyrpc_core/registry/redis_registry.py:28-50 | registering leaves every other listed instance listed |
| RedisRegistry.HeartbeatKeyInjective | pyrpc_core/registry/redis_registry.py:102-103 | distinct instance keys have distinct heartbeat keys |
| RedisRegistry.UnregisterKeepsEntry | pyrpc_core/registry/redis_registry.py:57-59 | unregister keeps every hash entry on another endpoint, and its heartbeat |
| RedisRegistry.UnregisterKeepsOthersListed | pyrpc_core/registry/redis_registry.py:52-64 | unregistering leaves every instance on another endpoint listed, under every service |
| RedisRegistry.AliveAfterTick | pyrpc_core/registry/redis_registry.py:105-106 | `_is_instance_alive` holds after time passes exactly when the heartbeat existed and its TTL had not run out |
| RedisRegistry.ExpiryWithoutRenewal | pyrpc_core/registry/redis_registry.py:39-47 | once 30 time units pass without renewal, the registered endpoint is no longer listed |
| RedisRegistry.GoneOnceExpired | pyrpc_core/registry/redis_registry.py:72-80 | once an endpoint's heartbeat has run out, no service lists an instance on that endpoint |
| RegistryFactory.GetRegistry | pyrpc_core/registry/registry_factory.py:12-21 | succeeds exactly when the lower-cased type is `memory`, with a fresh registry that knows no service or listener name; otherwise `ValueError("Unsupported registry type: <type as given>")` |
| RegistryFactory.CaseInsensitive | pyrpc_core/registry/registry_factory.py:18 | two type names that match letter by letter up to ASCII case get the same answer |
| RegistryFactory.AcceptedSpellings | pyrpc_core/registry/registry_factory.py:12-21 | the accepted type names are exactly the six-letter spellings of `memory` in any mix of cases |
| RegistryFactory.KnownTypes | pyrpc_core/registry/registry_factory.py:12-20 | `MEMORY` and `Memory` are accepted; `redis` and a misspelling are rejected |
| SerializerFactory.GetSerializer | pyrpc_core/serializer/serializer_facotry.py:13-27 | a cached tag returns its entry and leaves the cache unchanged; the JSON tag is cached and returned; any other tag raises `ValueError` and leaves the cache unchanged; cache entries are never changed or removed |
| SerializerFactory.GetSerializerKeepsCacheValid | pyrpc_core/serializer/serializer_facotry.py:20-24 | a cache holding only JSON entries stays so, and from such a cache only the JSON tag succeeds |
| SerializerFactory.GetSerializerIdempotent | pyrpc_core/serializer/serializer_facotry.py:20-27 | a second request for the same tag returns the same answer and leaves the cache as it was |
| SerializerFactory.TagDispatch | pyrpc_core/serializer/serializer_facotry.py:21-26 | JSON yields the JSON serializer; JDK and KRYO are unsupported |
| SerializerFactory.GetSerializerAsWritten | pyrpc_core/serializer/serializer_facotry.py:16-27 | (as written) an unsupported tag raises `AttributeError` for `SERIALIZER_YAML` |
| SerializerFactory.AsWrittenRaisesWrongError | pyrpc_core/serializer/serializer_facotry.py:23-26 | the code as written agrees with the intended factory on every success and raises a different error on every failure |
| KeyedSeqs.Find | pyrpc_core/bootstrap/consumer_bootstrap.py:65-67 | the lookup `name in consumers` / `consumers[name]` finds a stored value with that name, or none exists |
| KeyedSeqs.Put | pyrpc_core/bootstrap/provider_bootstrap.py:54 | after `providers[name] = p`, the name finds p and every other name finds what it found before; a new name is appended, and a known name keeps its place with only its value replaced |
| KeyedSeqs.PutKeepsUnique | pyrpc_core/bootstrap/provider_bootstrap.py:37-54 | storing keeps the dict's names unique |
| KeyedSeqs.FilterMembers | pyrpc_core/bootstrap/provider_bootstrap.py:62-63 | the values a loop with `if provider.registry:` acts on are exactly those that pass the test |
| KeyedSeqs.FilterSnoc | pyrpc_core/bootstrap/provider_bootstrap.py:62-63 | one more loop iteration acts on one more value exactly when it passes the test |
| KeyedSeqs.FilterPrefix | pyrpc_core/bootstrap/provider_bootstrap.py:62-63 | the values acted on in the first n iterations are a prefix of those acted on in all |
| ProviderBootstrap.AddService | pyrpc_core/bootstrap/provider_bootstrap.py:39-55 | (intended) fails exactly when the registry type is unsupported; otherwise stores the provider with its metadata (default empty) under its name, last write wins, and leaves other names alone |
| ProviderBootstrap.MergedMetadata | pyrpc_core/bootstrap/provider_bootstrap.py:68-72 | registered metadata has `version` and `serializer` plus the provider's own keys, and the provider's values win |
| ProviderBootstrap.Stop | pyrpc_core/bootstrap/provider_bootstrap.py:84-97 | issues one unregister per provider with a registry, in order, whether or not it was registered, and never raises |
| ProviderBootstrap.Start | pyrpc_core/bootstrap/provider_bootstrap.py:57-82 | succeeds exactly when no provider with a registry fails; registers one instance per such provider, in order, with merged metadata; on the first failure, stops and raises `RuntimeError` |
| ProviderBootstrap.RegisteredPrefix | pyrpc_core/bootstrap/provider_bootstrap.py:62-74 | one more loop iteration registers one more instance exactly when that provider has a registry |
| ProviderBootstrap.FirstFailure | pyrpc_core/bootstrap/provider_bootstrap.py:62-76 | the provider where the loop stops is the first failing one among those with a registry |
| ProviderBootstrap.StopInstanceDiffers | pyrpc_core/bootstrap/provider_bootstrap.py:88-92 | the instance `stop` unregisters is never the one `start` registered: it lacks the merged metadata |
| ProviderBootstrap.StopLeavesMemoryRegistration | pyrpc_core/bootstrap/provider_bootstrap.py:88-93 | so, with a memory registry, `stop` leaves the registration in place |
| ProviderBootstrap.StopAsWritten | pyrpc_core/bootstrap/provider_bootstrap.py:84-97 | (as written) unregisters providers up to the first one without a registry, which raises and ends the loop |
| ProviderBootstrap.StartAsWritten | pyrpc_core/bootstrap/provider_bootstrap.py:57-82 | (as written) starts only with no providers; otherwise registers nothing and raises |
| ProviderBootstrap.AsWrittenNeverRegisters | pyrpc_core/bootstrap/provider_bootstrap.py:57-82 | with providers that all have working registries, the code as written raises without registering, while the intended start succeeds |
| ConsumerBootstrap.AddService | pyrpc_core/bootstrap/consumer_bootstrap.py:29-39 | (intended) fails exactly when the registry type is unsupported; otherwise stores the consumer, without a proxy, under its name, last write wins, and leaves other names alone |
| ConsumerBootstrap.AddServiceAsWritten | pyrpc_core/bootstrap/consumer_bootstrap.py:29-39 | (as written) always raises: the factory's `ValueError`, or else `AttributeError` for `consumer` |
| ConsumerBootstrap.AsWrittenNothingDeclared | pyrpc_core/bootstrap/consumer_bootstrap.py:29-39 | as written, declaring a service fails; the intended version makes the name known with no proxy yet |
| ConsumerBootstrap.GetService | pyrpc_core/bootstrap/consumer_bootstrap.py:64-67 | `ValueError("Service <name> not found")` exactly for an undeclared name, otherwise that consumer's stored proxy |
| ConsumerBootstrap.WithProxies | pyrpc_core/bootstrap/consumer_bootstrap.py:49 | giving the first n consumers their proxies keeps every declaration and leaves the other consumers untouched |
| ConsumerBootstrap.Stop | pyrpc_core/bootstrap/consumer_bootstrap.py:55-62 | issues one unsubscribe per consumer with a registry, in order, and never raises |
| ConsumerBootstrap.Start | pyrpc_core/bootstrap/consumer_bootstrap.py:41-53 | succeeds exactly when no consumer with a registry fails; subscribes each such consumer to its own name and gives every consumer a proxy; on the first failure, earlier consumers keep their proxies, stop runs, and `RuntimeError` is raised |
| ConsumerBootstrap.SubscribedPrefix | pyrpc_core/bootstrap/consumer_bootstrap.py:43-48 | one more loop iteration subscribes one more name exactly when that consumer has a registry |
| ConsumerBootstrap.FailingIsListed | pyrpc_core/bootstrap/consumer_bootstrap.py:51-59 | a consumer whose subscription fails is among those `stop` unsubscribes |
| ConsumerBootstrap.StartThenGetService | pyrpc_core/bootstrap/consumer_bootstrap.py:41-67 | after a successful start, a declared name yields a proxy for that service, and an undeclared one fails |
| LocalRegistries.Empty | pyrpc/registry.py:2 | the registry starts with no services |
| LocalRegistries.GetService | pyrpc/registry.py:8-10 | returns the stored service, or `KeyError(name)` exactly when none is stored |
| LocalRegistries.Register | pyrpc/registry.py:4-6 | after registering, the name yields the service, every other name yields what it did before, and only that name is added |
| LocalRegistries.NeverRegisteredIsKeyError | pyrpc/registry.py:9-10 | a name never registered is a `KeyError` |
| LocalRegistries.ReRegisterOverwrites | pyrpc/registry.py:6 | registering a name twice is the same as registering only the second service |
| LocalRegistries.RegisterCommutes | pyrpc/registry.py:5-6 | registrations under different names do not interfere |
| RpcModel.Success | pyrpc/model.py:13-17 | `RpcResponse(data=result)` carries the result, an empty message and no exception |
| RpcModel.Failure | pyrpc/model.py:13-17 | `RpcResponse(data=None, exception=e)` carries no data, an empty message and the exception |
| RpcServer.Invoke | pyrpc/server.py:21-42 | status 200 exactly when the service and method exist and the call on the request's arguments returns, with that result; otherwise 500 with no data and `KeyError` (unknown service), `AttributeError` (unknown method) or exactly the exception the method raised; the message is always empty |
| RpcServer.HeaderGet | pyrpc/server.py:11 | the value of the first header whose name matches ignoring case, or None when none matches |
| RpcServer.ContentLength | pyrpc/server.py:11 | 0 when the header is absent, the parsed integer when present, and `ValueError` when it is not an integer |
| RpcServer.Read | pyrpc/server.py:14 | at most n bytes from the start of the input, or all of it when n is negative |
| RpcServer.DoPost | pyrpc/server.py:10-42 | a bad Content-Length escapes the handler; otherwise the first Content-Length bytes are deserialized, a deserialization error gives 500, and a request is dispatched |
| RpcServer.TrailingInputIgnored | pyrpc/server.py:11-14 | bytes after the declared Content-Length do not affect the reply |
| RpcServer.MissingContentLengthReadsNothing | pyrpc/server.py:11-14 | without the header, the handler reads no bytes |
| RpcServer.HeaderNameCaseInsensitive | pyrpc/server.py:11 | `content-length` and `CONTENT-LENGTH` are read like `Content-Length`, and a non-numeric value is an error |
| RpcServer.RegisteredServiceIsServed | pyrpc/registry.py:5-10 | a service in the local registry answers with exactly what its method returns on the request's arguments, or 500 with what it raises |
| Text.Lower | pyrpc_core/registry/registry_factory.py:18 | `str.lower` keeps the length and lower-cases each ASCII capital |
| Text.LowerEqual | pyrpc_core/registry/registry_factory.py:18 | two strings lower-case alike exactly when they have the same length and match character by character up to ASCII case |
| Text.IntToString | pyrpc_core/registry/redis_registry.py:100 | `str(int)`: a minus sign exactly for negative values, then one or more decimal digits with no leading zero unless the value is 0 |
| Text.IntToStringInjective | pyrpc_core/registry/redis_registry.py:100 | distinct integers print differently |
| Text.ParseInt | pyrpc/server.py:11 | `int(str)` accepts exactly an optional sign followed by decimal digits, and gives the digits' decimal value, negated after a minus sign |
| Text.ParseIntOfIntToString | pyrpc/server.py:11 | parsing the printed form of an integer gives back the integer |
| Text.ParseIntIgnoresPlusAndZeros | pyrpc/server.py:11 | `int` gives the same value with a leading plus sign or leading zeros, as for `"+7"` and `"007"` |
| Text.SplitAtLastSeparator | pyrpc_core/registry/redis_registry.py:100 | `x + ':' + y` determines x and y when y has no colon |

## Left out

- Sockets, the HTTP server, the response header and body writing, and the `requests` client. The handler's outcome is a `Reply` value.
- The Redis client, its pipelines and wall-clock expiry. Redis is an abstract store with a logical clock (`Tick`). Which store operations fail is a parameter. A pipeline is taken as all-or-nothing.
- The Redis hash order. `HGETALL` does not specify one, so the model uses insertion order. Statements about listings are about membership, except `GetInstance`, which takes the first in that order.
- The heartbeat thread. `_start_heartbbeat_check` is empty in the source.
- JSON serialization of instance info and its parse. The model stores the info as a record, so the round trip through JSON is taken as exact.
- The JSON, YAML and pickle serializers themselves. `SerializerFactory` returns a tag for the serializer. `RpcServer.DoPost` takes deserialization as a parameter. Serializing the response is taken never to fail.
- MemoryRegistry.ListInstances: `list_instances` returns `list(set)`, whose order Python does not fix; the model returns the set, so statements about it are about membership only.
- SerializerFactory.GetSerializer: drops the source's YAML branch (`serializer_facotry.py:23-24`), because `ProtocolConstants` defines no YAML tag for it to compare against; the YAML serializer that branch would cache is never returned. `GetSerializerAsWritten` keeps the branch and its `AttributeError`.
- ProviderBootstrap.MergedMetadata: the `serializer` entry is `str(SERIALIZER_JSON)`. The source names YAML, which has no tag value; the model picks JSON's.
- `random.choice`. `MemoryRegistry.GetInstance` returns some listed instance, chosen nondeterministically.
- Listener callbacks as code. A listener is an identity, and a notification is the instance set handed to it. Listeners that raise are not modelled.
- `ServiceInstance` comes from `pyrpc_core/registry/registry.py`, which is not part of this model. It is taken to be a record with structural equality whose metadata defaults to empty.
- Dynamic proxy creation. `_create_service_proxy` is a stub in the source that returns None. `ConsumerBootstrap.CreateProxy` stands for the proxy it is meant to build.
- `_handle_service_change` and the provider's RPC server start and stop hooks. All three are empty in the source.
- Method calls through reflection. A service is a map from method name to a function from positional arguments to a result or an exception. Raising a non-`Exception` is not modelled.
- Text.ParseInt: does not accept the surrounding whitespace or digit-group underscores that Python's `int` allows. Content-Length values in those forms are beyond this model.
- Text.Lower: lower-cases ASCII letters only; Python's `str.lower` also maps other Unicode capitals.
- ProviderBootstrap.Stop and ConsumerBootstrap.Stop: the loop is not cut short by a registry that raises from `unregister` or `unsubscribe`. Neither registry here does that; both return or ignore failures.
- ConsumerBootstrap.Start: the exception that leads to `RuntimeError` can only be a failed subscription, given by the `failing` set. The registries here do not raise from `subscribe`, so with them `start` always succeeds.
- The configuration dataclasses. A registry configuration is reduced to its type and address; the others are not modelled.
- The examples and the `pyrpc_easy` generation.

## Findings

| source | as written | input that shows it | evidently intended | confidence | as-written member | corrected member |
|---|---|---|---|---|---|---|
| pyrpc_core/registry/memory_registry.py:17-22 | `register` adds the service name to the set instead of the instance, and returns None | register then unregister of one instance on a new registry, as in test_registry.py:18-22 | add the instance and return True, so the list has one instance and then none | high (not executed) | MemoryRegistryAsWritten.RegisterUnregisterScenarioFails | MemoryRegistry.RegisterUnregisterScenario |
| pyrpc_core/bootstrap/consumer_bootstrap.py:38 | `add_service` stores into `self.consumer`, which does not exist, so it always raises `AttributeError` | any call with no registry config | store into `self.consumers` and return the bootstrap | high (not executed) | ConsumerBootstrap.AsWrittenNothingDeclared | ConsumerBootstrap.AddService |
| pyrpc_core/bootstrap/provider_bootstrap.py:25-70 | `ServiceProvider` drops its metadata and sets `registry` only when configured, and `start` reads the undefined `SERIALIZER_YAML`, so `start` raises for any provider | one provider with a memory registry | register each provider that has a registry, with merged metadata whose `serializer` entry is the JSON tag (no YAML tag exists) | high (not executed) | ProviderBootstrap.AsWrittenNeverRegisters | ProviderBootstrap.Start |
| pyrpc_core/serializer/serializer_facotry.py:23 | an unsupported tag reaches `SERIALIZER_YAML`, which is undefined, and raises `AttributeError` | tag 1 (JDK) on an empty cache | raise `ValueError("Unsupported serializer type: 1")` | high (not executed) | SerializerFactory.AsWrittenRaisesWrongError | SerializerFactory.GetSerializer |

=== FILE: bytes.dfy ===
/**
 * Bytes as Python's `struct` module sees them: unsigned big-endian integers of a
 * fixed width (`I`, `Q`) and two's-complement signed single bytes (`b`).
 */
module Bytes {

  type byte = x: int | 0 <= x < 256

  /** 256^n, the number of distinct values an n-byte field can hold. */
  function Pow256(n: nat): (r: nat)
    ensures r > 0
  {
    if n == 0 then 1 else 256 * Pow256(n - 1)
  }

  /** The n-byte big-endian encoding of x (most significant byte first). */
  function BigEndian(x: nat, n: nat): (r: seq<byte>)
    requires x < Pow256(n)
    ensures |r| == n
  {
    if n == 0 then []
    else
      var p := Pow256(n - 1);
      DivBelow(x, p);
      var q: nat := x / 256;
      var lo: byte := x % 256;
      BigEndian(q, n - 1) + [lo]
  }

  lemma DivBelow(x: nat, p: nat)
    requires x < 256 * p
    ensures x / 256 < p
  {
  }

  /** The unsigned integer a big-endian byte string denotes. */
  function FromBigEndian(s: seq<byte>): (r: nat)
    ensures r < Pow256(|s|)
  {
    if |s| == 0 then 0
    else
      var hi := FromBigEndian(s[..|s| - 1]);
      assert hi <= Pow256(|s| - 1) - 1;
      hi * 256 + s[|s| - 1]
  }

  /** Decoding an encoding gives back the number. */
  lemma {:induction false} FromBigEndianOfBigEndian(x: nat, n: nat)
    requires x < Pow256(n)
    ensures FromBigEndian(BigEndian(x, n)) == x
  {
    if n > 0 {
      var s := BigEndian(x, n);
      assert s[..n - 1] == BigEndian(x / 256, n - 1);
      FromBigEndianOfBigEndian(x / 256, n - 1);
    }
  }

  /** Encoding a decoded byte string gives back the bytes: the encoding is a bijection. */
  lemma {:induction false} BigEndianOfFromBigEndian(s: seq<byte>)
    ensures BigEndian(FromBigEndian(s), |s|) == s
  {
    if |s| > 0 {
      var p := s[..|s| - 1];
      var x := FromBigEndian(s);
      assert x / 256 == FromBigEndian(p) && x % 256 == s[|s| - 1];
      BigEndianOfFromBigEndian(p);
      assert s == p + [s[|s| - 1]];
    }
  }

  /** Whether v fits the signed one-byte `struct` format `b`. */
  predicate IsSignedByte(v: int) {
    -128 <= v < 128
  }

  /** The two's-complement byte `struct.pack('b', v)` writes. */
  function SignedByte(v: int): (r: byte)
    requires IsSignedByte(v)
    ensures v >= 0 ==> r == v
    ensures v < 0 ==> r == v + 256
  {
    if v < 0 then v + 256 else v
  }

  /** The value `struct.unpack('b', ...)` reads from a byte. */
  function FromSignedByte(b: byte): (r: int)
    ensures IsSignedByte(r)
    ensures b < 128 ==> r == b
    ensures b >= 128 ==> r == b - 256
  {
    if b < 128 then b else b - 256
  }

  lemma SignedByteRoundTrip(v: int, b: byte)
    requires IsSignedByte(v)
    ensures FromSignedByte(SignedByte(v)) == v
    ensures SignedByte(FromSignedByte(b)) == b
  {
  }
}

=== FILE: consumer_bootstrap.dfy ===
/**
 * `ConsumerBootstrap`: the remote services a consumer declares, keyed by name;
 * `start` subscribes to each one's registry and gives each a proxy, `stop`
 * unsubscribes, and `get_service` hands out the proxy.
 *
 * As written, `add_service` stores into `self.consumer`, an attribute that does
 * not exist (line 38), so it always raises and nothing can be declared.
 * `AddService` models the evident intent (`self.consumers`);
 * `AddServiceAsWritten` the code.
 *
 * The source's proxy factory is a stub; a proxy is modelled as a value naming
 * its service and declared interface.
 */
module ConsumerBootstrap {
  import opened Wrappers
  import opened Exceptions
  import RegistryFactory
  import KeyedSeqs

  /** The declared remote interface (`service_class`): its method names. */
  datatype ServiceShape = ServiceShape(methods: set<string>)

  /** The proxy `_create_service_proxy` stands for. */
  datatype Proxy = Proxy(serviceName: string, shape: ServiceShape)

  /** `ServiceConsumer`. */
  datatype Consumer = Consumer(
    serviceName: string,
    shape: ServiceShape,
    /** Whether a registry was configured (and so built by the factory). */
    hasRegistry: bool,
    proxy: Option<Proxy>)

  datatype Bootstrap = Bootstrap(consumers: seq<Consumer>)

  /** A call the bootstrap makes on a consumer's registry; the listener is `_handle_service_change`. */
  datatype RegistryCall = Subscribe(serviceName: string) | Unsubscribe(serviceName: string)

  /** The key of a consumer in the bootstrap's dict. */
  function Name(c: Consumer): string {
    c.serviceName
  }

  predicate HasRegistry(c: Consumer) {
    c.hasRegistry
  }

  /** The consumers are keyed by name: no name occurs twice. */
  predicate Valid(b: Bootstrap) {
    KeyedSeqs.UniqueKeys(b.consumers, Name)
  }

  /** The consumer stored under a name, if any. */
  function Find(b: Bootstrap, name: string): Option<Consumer> {
    KeyedSeqs.Find(b.consumers, Name, name)
  }

  /**
   * `add_service` (intended): record a consumer without a proxy under its name,
   * replacing any earlier one, and return the bootstrap. An unsupported
   * registry type raises `ValueError` and records nothing.
   */
  function AddService(b: Bootstrap, name: string, shape: ServiceShape,
                      config: Option<RegistryFactory.RegistryConfig>): (r: Result<Bootstrap, Exception>)
    requires Valid(b)
    ensures r.Err? <==> config.Some? && RegistryFactory.GetRegistry(config.value).Err?
    ensures r.Ok? ==> Valid(r.value)
    ensures r.Ok? ==> Find(r.value, name) == Some(Consumer(name, shape, config.Some?, None))
    ensures r.Ok? ==> forall other :: other != name ==> Find(r.value, other) == Find(b, other)
  {
    if config.Some? && RegistryFactory.GetRegistry(config.value).Err? then
      Err(RegistryFactory.GetRegistry(config.value).error)
    else
      var c := Consumer(name, shape, config.Some?, None);
      KeyedSeqs.PutKeepsUnique(b.consumers, Name, c);
      Ok(Bootstrap(KeyedSeqs.Put(b.consumers, Name, c)))
  }

  /**
   * `add_service` as written: once the consumer is built (which may already
   * raise `ValueError`), the store into `self.consumer` raises `AttributeError`.
   */
  function AddServiceAsWritten(b: Bootstrap, name: string, shape: ServiceShape,
                               config: Option<RegistryFactory.RegistryConfig>): (r: Result<Bootstrap, Exception>)
    ensures r.Err?
    ensures !(config.Some? && RegistryFactory.GetRegistry(config.value).Err?) ==> r.error == AttributeError("consumer")
  {
    if config.Some? && RegistryFactory.GetRegistry(config.value).Err? then
      Err(RegistryFactory.GetRegistry(config.value).error)
    else
      Err(AttributeError("consumer"))
  }

  /**
   * `get_service`: the stored proxy of a declared consumer (None before
   * `start`); `ValueError` for a name never declared.
   */
  function GetService(b: Bootstrap, name: string): (r: Result<Option<Proxy>, Exception>)
    ensures r.Err? <==> forall k :: 0 <= k < |b.consumers| ==> b.consumers[k].serviceName != name
    ensures r.Err? ==> r.error == ValueError("Service " + name + " not found")
    ensures r.Ok? ==> exists c :: c in b.consumers && c.serviceName == name && r.value == c.proxy
  {
    match Find(b, name)
    case None => Err(ValueError("Service " + name + " not found"))
    case Some(c) => Ok(c.proxy)
  }

  /** As written, no service can ever be declared, so `get_service` fails for every name. */
  lemma AsWrittenNothingDeclared(name: string, shape: ServiceShape,
                                 config: Option<RegistryFactory.RegistryConfig>, query: string)
    ensures AddServiceAsWritten(Bootstrap([]), name, shape, config).Err?
    ensures GetService(Bootstrap([]), query).Err?
    ensures config.None? ==> AddService(Bootstrap([]), name, shape, config).Ok?
    ensures config.None? ==> GetService(AddService(Bootstrap([]), name, shape, config).value, name) == Ok(None)
  {
  }

  /** `_create_service_proxy`. */
  function CreateProxy(c: Consumer): Proxy {
    Proxy(c.serviceName, c.shape)
  }

  /** The consumers that have a registry, in order. */
  function WithRegistry(cs: seq<Consumer>): seq<Consumer> {
    KeyedSeqs.Filter(cs, HasRegistry)
  }

  function SubscribeCalls(cs: seq<Consumer>): seq<RegistryCall> {
    seq(|cs|, k requires 0 <= k < |cs| => Subscribe(cs[k].serviceName))
  }

  function UnsubscribeCalls(cs: seq<Consumer>): seq<RegistryCall> {
    seq(|cs|, k requires 0 <= k < |cs| => Unsubscribe(cs[k].serviceName))
  }

  /** `stop`: unsubscribe every consumer that has a registry; neither registry raises here. */
  method Stop(b: Bootstrap) returns (calls: seq<RegistryCall>)
    ensures calls == UnsubscribeCalls(WithRegistry(b.consumers))
  {
    calls := [];
    var i := 0;
    while i < |b.consumers|
      invariant 0 <= i <= |b.consumers|
      invariant calls == UnsubscribeCalls(WithRegistry(b.consumers[..i]))
    {
      var c := b.consumers[i];
      KeyedSeqs.FilterSnoc(b.consumers[..i], HasRegistry, c);
      assert b.consumers[..i + 1] == b.consumers[..i] + [c];
      if c.hasRegistry {
        calls := calls + [Unsubscribe(c.serviceName)];
      }
      i := i + 1;
    }
    assert b.consumers[..i] == b.consumers;
  }

  /** The consumer list once the first n consumers have their proxy. */
  function WithProxies(cs: seq<Consumer>, n: nat): (r: seq<Consumer>)
    requires n <= |cs|
    ensures SameDeclarations(cs, r)
    ensures forall k :: 0 <= k < n ==> r[k].proxy == Some(CreateProxy(cs[k]))
    ensures forall k :: n <= k < |cs| ==> r[k] == cs[k]
  {
    seq(|cs|, k requires 0 <= k < |cs| => if k < n then cs[k].(proxy := Some(CreateProxy(cs[k]))) else cs[k])
  }

  /** Two consumer lists declare the same services in the same order; proxies may differ. */
  predicate SameDeclarations(cs: seq<Consumer>, ds: seq<Consumer>) {
    |cs| == |ds|
    && forall k :: 0 <= k < |cs| ==>
      ds[k].serviceName == cs[k].serviceName && ds[k].hasRegistry == cs[k].hasRegistry && ds[k].shape == cs[k].shape
  }

  /**
   * `start`: for each consumer in order, subscribe to its registry when it has
   * one, then set its proxy. The first subscription that fails ends the loop;
   * `stop` is then run and `RuntimeError` raised, with the proxies already set
   * left in place. `failing` names the consumers whose registry refuses.
   */
  method Start(b: Bootstrap, failing: set<string>)
    returns (b': Bootstrap, calls: seq<RegistryCall>, result: Outcome<Exception>)
    ensures SameDeclarations(b.consumers, b'.consumers)
    ensures result.Pass? <==> forall c :: c in WithRegistry(b.consumers) ==> c.serviceName !in failing
    ensures result.Pass? ==> calls == SubscribeCalls(WithRegistry(b.consumers))
    ensures result.Pass? ==> b'.consumers == WithProxies(b.consumers, |b.consumers|)
    ensures result.Fail? ==> result.error.RuntimeError?
    ensures result.Fail? ==>
      (exists i :: 0 <= i < |b.consumers|
        && b.consumers[i].hasRegistry && b.consumers[i].serviceName in failing
        && (forall c :: c in WithRegistry(b.consumers[..i]) ==> c.serviceName !in failing)
        && b'.consumers == WithProxies(b.consumers, i)
        && calls == SubscribeCalls(WithRegistry(b.consumers[..i + 1])) + UnsubscribeCalls(WithRegistry(b.consumers)))
  {
    calls := [];
    var i := 0;
    while i < |b.consumers|
      invariant 0 <= i <= |b.consumers|
      invariant calls == SubscribeCalls(WithRegistry(b.consumers[..i]))
      invariant forall c :: c in WithRegistry(b.consumers[..i]) ==> c.serviceName !in failing
    {
      var c := b.consumers[i];
      SubscribedPrefix(b.consumers, i);
      if c.hasRegistry {
        calls := calls + [Subscribe(c.serviceName)];
        if c.serviceName in failing {
          FailingIsListed(b.consumers, i);
          var undo := Stop(b);
          calls := calls + undo;
          b' := Bootstrap(WithProxies(b.consumers, i));
          result := Fail(RuntimeError("Failed to start consumer bootstrap: subscription to "
                                      + c.serviceName + " failed"));
          return;
        }
      }
      i := i + 1;
    }
    assert b.consumers[..i] == b.consumers;
    b' := Bootstrap(WithProxies(b.consumers, |b.consumers|));
    result := Pass;
  }

  /** The subscriptions for the first i + 1 consumers extend those for the first i. */
  lemma SubscribedPrefix(cs: seq<Consumer>, i: nat)
    requires i < |cs|
    ensures WithRegistry(cs[..i + 1]) == WithRegistry(cs[..i]) + (if cs[i].hasRegistry then [cs[i]] else [])
    ensures SubscribeCalls(WithRegistry(cs[..i + 1]))
            == SubscribeCalls(WithRegistry(cs[..i])) + (if cs[i].hasRegistry then [Subscribe(cs[i].serviceName)] else [])
  {
    KeyedSeqs.FilterSnoc(cs[..i], HasRegistry, cs[i]);
    assert cs[..i + 1] == cs[..i] + [cs[i]];
  }

  /** A consumer with a registry is among those `stop` unsubscribes. */
  lemma FailingIsListed(cs: seq<Consumer>, i: nat)
    requires i < |cs| && cs[i].hasRegistry
    ensures cs[i] in WithRegistry(cs)
  {
    SubscribedPrefix(cs, i);
    KeyedSeqs.FilterPrefix(cs, HasRegistry, i + 1);
    var w := WithRegistry(cs);
    assert w[|WithRegistry(cs[..i])|] == cs[i];
  }

  /** After a successful `start`, `get_service` of a declared name returns that consumer's proxy. */
  method StartThenGetService(b: Bootstrap, name: string) returns (r: Result<Option<Proxy>, Exception>)
    requires Valid(b)
    ensures r.Err? <==> Find(b, name).None?
    ensures r.Ok? ==> r.value.Some? && r.value.value.serviceName == name
  {
    var b', calls, result := Start(b, {});
    assert Valid(b');
    r := GetService(b', name);
    if r.Ok? {
      var c :| c in b'.consumers && c.serviceName == name && r.value == c.proxy;
      var k :| 0 <= k < |b'.consumers| && b'.consumers[k] == c;
      assert b.consumers[k].serviceName == name;
    }
  }
}

=== FILE: keyed_seqs.dfy ===
/**
 * A Python dict keyed by name, as the bootstraps use it: the values in
 * first-insertion order, each carrying its own key. Assigning to a known key
 * replaces the value in place; assigning to a new key appends.
 */
module KeyedSeqs {
  import opened Wrappers

  /** No key occurs twice. */
  predicate UniqueKeys<T>(xs: seq<T>, key: T -> string) {
    forall a, c :: 0 <= a < c < |xs| ==> key(xs[a]) != key(xs[c])
  }

  /** `d.get(k)`: the value stored under a key, if any. */
  function Find<T>(xs: seq<T>, key: T -> string, k: string): (r: Option<T>)
    ensures r.Some? ==> r.value in xs && key(r.value) == k
    ensures r.None? ==> forall j :: 0 <= j < |xs| ==> key(xs[j]) != k
  {
    if |xs| == 0 then None
    else if key(xs[0]) == k then Some(xs[0])
    else
      var r := Find(xs[1..], key, k);
      assert forall j :: 1 <= j < |xs| ==> xs[j] == xs[1..][j - 1];
      r
  }

  /**
   * `d[key(x)] = x`: the key now finds x, and every other key finds what it
   * found before. A new key is appended; a known key keeps its place and only
   * its value is replaced.
   */
  function Put<T>(xs: seq<T>, key: T -> string, x: T): (r: seq<T>)
    ensures Find(r, key, key(x)) == Some(x)
    ensures forall other :: other != key(x) ==> Find(r, key, other) == Find(xs, key, other)
    ensures Find(xs, key, key(x)).None? ==> r == xs + [x]
    ensures UniqueKeys(xs, key) && Find(xs, key, key(x)).Some? ==>
      |r| == |xs| && forall j :: 0 <= j < |r| ==> r[j] == (if key(xs[j]) == key(x) then x else xs[j])
  {
    if |xs| == 0 then [x]
    else if key(xs[0]) == key(x) then [x] + xs[1..]
    else
      var t := Put(xs[1..], key, x);
      assert forall j :: 1 <= j < |xs| ==> xs[j] == xs[1..][j - 1];
      assert xs == [xs[0]] + xs[1..];
      [xs[0]] + t
  }

  /** Storing keeps the keys unique. */
  lemma {:induction false} PutKeepsUnique<T>(xs: seq<T>, key: T -> string, x: T)
    requires UniqueKeys(xs, key)
    ensures UniqueKeys(Put(xs, key, x), key)
  {
    if |xs| > 0 && key(xs[0]) != key(x) {
      var tail := xs[1..];
      var t := Put(tail, key, x);
      PutKeepsUnique(tail, key, x);
      forall j | 0 <= j < |t|
        ensures key(t[j]) != key(xs[0])
      {
        var y := key(t[j]);
        if y != key(x) {
          assert Find(t, key, y).Some?;
          var q := Find(tail, key, y).value;
          assert q in tail;
        }
      }
    }
  }

  /** The values that pass a test, in order: what a loop with `if keep(x):` acts on. */
  function Filter<T>(xs: seq<T>, keep: T -> bool): (r: seq<T>)
    ensures |r| <= |xs|
  {
    if |xs| == 0 then []
    else (if keep(xs[0]) then [xs[0]] else []) + Filter(xs[1..], keep)
  }

  /** Exactly the values that pass the test are kept. */
  lemma {:induction false} FilterMembers<T>(xs: seq<T>, keep: T -> bool)
    ensures forall x :: x in Filter(xs, keep) <==> x in xs && keep(x)
  {
    if |xs| > 0 {
      FilterMembers(xs[1..], keep);
      assert xs == [xs[0]] + xs[1..];
    }
  }

  /** Filtering one more value extends the result by that value when it passes. */
  lemma {:induction false} FilterSnoc<T>(xs: seq<T>, keep: T -> bool, x: T)
    ensures Filter(xs + [x], keep) == Filter(xs, keep) + (if keep(x) then [x] else [])
  {
    if |xs| > 0 {
      assert (xs + [x])[0] == xs[0];
      assert (xs + [x])[1..] == xs[1..] + [x];
      FilterSnoc(xs[1..], keep, x);
    } else {
      assert xs + [x] == [x];
    }
  }

  /** Filtering a prefix gives a prefix of the filtered whole. */
  lemma {:induction false} FilterPrefix<T>(xs: seq<T>, keep: T -> bool, n: nat)
    requires n <= |xs|
    ensures Filter(xs[..n], keep) <= Filter(xs, keep)
  {
    if n > 0 {
      assert xs[..n][1..] == xs[1..][..n - 1];
      FilterPrefix(xs[1..], keep, n - 1);
    }
  }
}

=== FILE: local_registry.dfy ===
/**
 * `LocalRegistry` of the HTTP generation: one process-wide table from
 * service name to service object (a class attribute, so every caller shares
 * it). The model passes the table as a value.
 */
module LocalRegistries {
  import opened Wrappers
  import opened Exceptions

  datatype LocalRegistry<S> = LocalRegistry(services: map<string, S>)

  function Empty<S>(): (r: LocalRegistry<S>)
    ensures r.services == map[]
  {
    LocalRegistry(map[])
  }

  /** `get_service`: the service stored under the name; `KeyError(name)` when there is none. */
  function GetService<S>(reg: LocalRegistry<S>, name: string): (r: Result<S, Exception>)
    ensures r.Ok? <==> name in reg.services
    ensures r.Ok? ==> r.value == reg.services[name]
    ensures r.Err? ==> r.error == KeyError(name)
  {
    if name in reg.services then Ok(reg.services[name]) else Err(KeyError(name))
  }

  /** `register`: store the service under the name, replacing what was there. */
  function Register<S>(reg: LocalRegistry<S>, name: string, service: S): (r: LocalRegistry<S>)
    ensures r.services.Keys == reg.services.Keys + {name}
    ensures GetService(r, name) == Ok(service)
    ensures forall other :: other != name ==> GetService(r, other) == GetService(reg, other)
  {
    LocalRegistry(reg.services[name := service])
  }

  /** A name never registered is a `KeyError`. */
  lemma NeverRegisteredIsKeyError<S>(name: string)
    ensures GetService(Empty<S>(), name) == Err(KeyError(name))
  {
  }

  /** Re-registering a name overwrites: only the later service is visible. */
  lemma ReRegisterOverwrites<S>(reg: LocalRegistry<S>, name: string, first: S, second: S)
    ensures Register(Register(reg, name, first), name, second) == Register(reg, name, second)
  {
  }

  /** Registrations under different names commute. */
  lemma RegisterCommutes<S>(reg: LocalRegistry<S>, a: string, sa: S, b: string, sb: S)
    requires a != b
    ensures Register(Register(reg, a, sa), b, sb) == Register(Register(reg, b, sb), a, sa)
  {
  }
}

=== FILE: memory_registry.dfy ===
/**
 * `MemoryRegistry`: service name -> set of instances, and service name -> set of
 * listeners, with synchronous notification of a name's listeners after every
 * `register` and every `unregister` of a known name.
 *
 * The source's `register` adds the service NAME to the set and returns nothing;
 * the tests expect the instance to be added and True returned. `Register` below
 * is that intended behaviour; `AsWritten` holds the code as written.
 */
module MemoryRegistry {
  import opened Wrappers
  import opened ServiceInstances

  datatype Registry = Registry(
    services: map<string, set<ServiceInstance>>,
    listeners: map<string, set<Listener>>)

  /**
   * `_notify_listeners`: each of `listeners` is called once, and every one of
   * them receives the same snapshot of the name's instances.
   */
  datatype Notification = Notification(listeners: set<Listener>, instances: set<ServiceInstance>)

  /** The result of one call: the new state, its return value, and the calls made to listeners. */
  datatype Step<T> = Step(
    registry: Registry,
    result: T,
    notified: Notification)

  /** The registry a fresh `MemoryRegistry(config)` starts with. */
  function Empty(): (r: Registry)
    ensures forall name :: ListInstances(r, name) == {}
    ensures forall name :: ListenersOf(r, name) == {}
    ensures r.services.Keys == {} && r.listeners.Keys == {}
  {
    Registry(map[], map[])
  }

  /** `list_instances`: the instances under a name, none for an unknown name. */
  function ListInstances(r: Registry, name: string): set<ServiceInstance> {
    if name in r.services then r.services[name] else {}
  }

  function ListenersOf(r: Registry, name: string): set<Listener> {
    if name in r.listeners then r.listeners[name] else {}
  }

  /** `_notify_listeners` of a name: its listeners, with the name's instances as they are now. */
  function Notify(r: Registry, name: string): Notification {
    Notification(ListenersOf(r, name), ListInstances(r, name))
  }

  /** `register` (intended): add the instance under its name, notify, return True. */
  function Register(r: Registry, i: ServiceInstance): (s: Step<bool>)
    ensures s.result
    ensures ListInstances(s.registry, i.serviceName) == ListInstances(r, i.serviceName) + {i}
    ensures forall name :: name != i.serviceName ==> ListInstances(s.registry, name) == ListInstances(r, name)
    ensures s.registry.services.Keys == r.services.Keys + {i.serviceName}
    ensures s.registry.listeners == r.listeners
    ensures s.notified.listeners == ListenersOf(r, i.serviceName)
    ensures i in s.notified.instances && s.notified.instances == ListInstances(s.registry, i.serviceName)
  {
    var name := i.serviceName;
    var r' := r.(services := r.services[name := ListInstances(r, name) + {i}]);
    Step(r', true, Notify(r', name))
  }

  /**
   * `unregister`: for a known name, discard the instance (absent or not), notify
   * and return True; for a name never registered, change nothing and return False.
   */
  function Unregister(r: Registry, i: ServiceInstance): (s: Step<bool>)
    ensures s.result <==> i.serviceName in r.services
    ensures ListInstances(s.registry, i.serviceName) == ListInstances(r, i.serviceName) - {i}
    ensures forall name :: name != i.serviceName ==> ListInstances(s.registry, name) == ListInstances(r, name)
    ensures !s.result ==> s.registry == r && s.notified.listeners == {}
    ensures s.registry.services.Keys == r.services.Keys
    ensures s.registry.listeners == r.listeners
    ensures s.result ==> s.notified.listeners == ListenersOf(r, i.serviceName)
    ensures s.result ==> i !in s.notified.instances && s.notified.instances == ListInstances(s.registry, i.serviceName)
  {
    var name := i.serviceName;
    if name in r.services then
      var r' := r.(services := r.services[name := r.services[name] - {i}]);
      Step(r', true, Notify(r', name))
    else
      Step(r, false, Notification({}, {}))
  }

  /** `get_instance`: a member chosen at random, or None when the name has no instance. */
  method GetInstance(r: Registry, name: string) returns (pick: Option<ServiceInstance>)
    ensures pick.None? <==> ListInstances(r, name) == {}
    ensures pick.Some? ==> pick.value in ListInstances(r, name)
  {
    var instances := ListInstances(r, name);
    if instances == {} {
      return None;
    }
    var i :| i in instances;
    return Some(i);
  }

  /** `subscribe`: add the callback to the name's listeners; nothing else changes. */
  function Subscribe(r: Registry, name: string, l: Listener): (r': Registry)
    ensures ListenersOf(r', name) == ListenersOf(r, name) + {l}
    ensures forall other :: other != name ==> ListenersOf(r', other) == ListenersOf(r, other)
    ensures r'.services == r.services
  {
    r.(listeners := r.listeners[name := ListenersOf(r, name) + {l}])
  }

  /** `unsubscribe`: drop every listener of the name; other names and the instances are untouched. */
  function Unsubscribe(r: Registry, name: string): (r': Registry)
    ensures ListenersOf(r', name) == {}
    ensures forall other :: other != name ==> ListenersOf(r', other) == ListenersOf(r, other)
    ensures r'.services == r.services
  {
    r.(listeners := r.listeners - {name})
  }

  /**
   * A subscribed callback hears of the next register and unregister under its
   * name; once the name is unsubscribed, a register notifies no one.
   */
  lemma SubscribeThenNotified(r: Registry, l: Listener, i: ServiceInstance)
    ensures l in Register(Subscribe(r, i.serviceName, l), i).notified.listeners
    ensures var s := Subscribe(Register(r, i).registry, i.serviceName, l);
            Unregister(s, i).result && l in Unregister(s, i).notified.listeners
    ensures Register(Unsubscribe(r, i.serviceName), i).notified.listeners == {}
    ensures Unregister(Unsubscribe(r, i.serviceName), i).notified.listeners == {}
  {
  }

  /** Registering an instance already present changes nothing: sets de-duplicate. */
  lemma RegisterIdempotent(r: Registry, i: ServiceInstance)
    ensures var r1 := Register(r, i).registry;
            Register(r1, i).registry == r1
  {
    var r1 := Register(r, i).registry;
    assert r1.services[i.serviceName] + {i} == r1.services[i.serviceName];
    assert r1.services[i.serviceName := r1.services[i.serviceName]] == r1.services;
  }

  /** After `register(i)`, `i` is listed under its name. */
  lemma RegisterThenListed(r: Registry, i: ServiceInstance)
    ensures i in ListInstances(Register(r, i).registry, i.serviceName)
  {
  }

  /** Unregistering after registering leaves the name's instances as they were without `i`. */
  lemma RegisterThenUnregister(r: Registry, i: ServiceInstance)
    ensures var s1 := Register(r, i);
            var s2 := Unregister(s1.registry, i);
            && s2.result
            && ListInstances(s2.registry, i.serviceName) == ListInstances(r, i.serviceName) - {i}
  {
  }

  /**
   * The scenario of `test_register_and_unregister_service`: on a fresh registry,
   * register returns True and lists one instance; unregister returns True and
   * lists none.
   */
  lemma RegisterUnregisterScenario(i: ServiceInstance)
    ensures var s1 := Register(Empty(), i);
            var s2 := Unregister(s1.registry, i);
            && s1.result && |ListInstances(s1.registry, i.serviceName)| == 1
            && s2.result && |ListInstances(s2.registry, i.serviceName)| == 0
  {
    var s1 := Register(Empty(), i);
    assert ListInstances(s1.registry, i.serviceName) == {i};
  }

  /** The scenario of `test_get_instance`: two instances on different ports are both listed. */
  lemma TwoInstancesListed(i1: ServiceInstance, i2: ServiceInstance)
    requires i1.serviceName == i2.serviceName && i1.port != i2.port
    ensures ListInstances(Register(Register(Empty(), i1).registry, i2).registry, i1.serviceName) == {i1, i2}
    ensures |ListInstances(Register(Register(Empty(), i1).registry, i2).registry, i1.serviceName)| == 2
  {
    var r1 := Register(Empty(), i1).registry;
    var r2 := Register(r1, i2).registry;
    assert ListInstances(r1, i1.serviceName) == {i1};
    assert ListInstances(r2, i1.serviceName) == {i1, i2};
  }

  /** Every instance is stored under its own service name. */
  predicate Consistent(r: Registry) {
    forall name, x :: name in r.services && x in r.services[name] ==> x.serviceName == name
  }

  /** `register` files the instance under its own name, so the registry stays consistent. */
  lemma RegisterKeepsConsistent(r: Registry, i: ServiceInstance)
    requires Consistent(r)
    ensures Consistent(Register(r, i).registry)
  {
  }

  /** `unregister` only removes, so the registry stays consistent. */
  lemma UnregisterKeepsConsistent(r: Registry, i: ServiceInstance)
    requires Consistent(r)
    ensures Consistent(Unregister(r, i).registry)
  {
  }

  /**
   * `list_instances` of a consistent registry: every instance listed carries the
   * name asked for, and a name never registered lists nothing.
   */
  lemma ListedUnderOwnName(r: Registry, name: string)
    requires Consistent(r)
    ensures forall x :: x in ListInstances(r, name) ==> x.serviceName == name
    ensures name !in r.services ==> ListInstances(r, name) == {}
  {
  }

  /**
   * Once a name is known it stays known: after a successful `unregister`, a
   * second `unregister` under the same name also returns True.
   */
  lemma UnregisterKeepsNameKnown(r: Registry, i: ServiceInstance, j: ServiceInstance)
    requires Unregister(r, i).result
    requires j.serviceName == i.serviceName
    ensures Unregister(Unregister(r, i).registry, j).result
  {
  }

  /** `get_instance` never returns an instance that has been unregistered. */
  method PickAfterUnregister(r: Registry, i: ServiceInstance) returns (pick: Option<ServiceInstance>)
    ensures pick != Some(i)
    ensures pick.Some? ==> pick.value in ListInstances(r, i.serviceName)
  {
    var s := Unregister(r, i);
    pick := GetInstance(s.registry, i.serviceName);
  }
}

/**
 * `MemoryRegistry.register` as written: it adds the service name string, not the
 * instance, to the name's set, and falls off the end, returning None.
 * `unregister` and `list_instances` are unchanged, so the sets hold a mix of
 * instances and names.
 */
module MemoryRegistryAsWritten {
  import opened Wrappers
  import opened ServiceInstances

  /** What the as-written sets can hold. */
  datatype Member = Instance(instance: ServiceInstance) | Name(name: string)

  type Services = map<string, set<Member>>

  function ListInstances(s: Services, name: string): set<Member> {
    if name in s then s[name] else {}
  }

  /** `register` as written: the name goes in, the instance does not, and None comes back. */
  function Register(s: Services, i: ServiceInstance): (r: (Services, Option<bool>))
    ensures r.1 == None
    ensures ListInstances(r.0, i.serviceName) == ListInstances(s, i.serviceName) + {Name(i.serviceName)}
  {
    (s[i.serviceName := ListInstances(s, i.serviceName) + {Name(i.serviceName)}], None)
  }

  /** `unregister`, which discards the instance itself. */
  function Unregister(s: Services, i: ServiceInstance): (r: (Services, bool))
    ensures r.1 <==> i.serviceName in s
    ensures ListInstances(r.0, i.serviceName) == ListInstances(s, i.serviceName) - {Instance(i)}
  {
    if i.serviceName in s then (s[i.serviceName := s[i.serviceName] - {Instance(i)}], true)
    else (s, false)
  }

  /**
   * `test_register_and_unregister_service` against the code as written: register
   * returns None rather than True, and after unregister one entry (the name) is
   * still listed, where the test expects none.
   */
  lemma RegisterUnregisterScenarioFails(i: ServiceInstance)
    ensures var r1 := Register(map[], i);
            var r2 := Unregister(r1.0, i);
            && r1.1 != Some(true)
            && |ListInstances(r1.0, i.serviceName)| == 1
            && ListInstances(r2.0, i.serviceName) == {Name(i.serviceName)}
            && |ListInstances(r2.0, i.serviceName)| != 0
  {
    var r1 := Register(map[], i);
    assert ListInstances(r1.0, i.serviceName) == {Name(i.serviceName)};
  }
}

=== FILE: protocol_constants.dfy ===
/** The tags and fixed values of the binary protocol (`ProtocolConstants`). */
module ProtocolConstants {
  import opened Bytes

  // Message type
  const REQUEST_TYPE: int := 1
  const RESPONSE_TYPE: int := 2

  // Serializer type. There is no YAML tag, although two callers name one.
  const SERIALIZER_JDK: int := 1
  const SERIALIZER_JSON: int := 2
  const SERIALIZER_KRYO: int := 3

  // Compressor type
  const COMPRESSOR_NONE: int := 0
  const COMPRESSOR_GZIP: int := 1

  const MAGIC_NUMBER: int := 0xCAFEBABE

  const VERSION: int := 1

  /** The serializer tags the protocol defines. */
  const SerializerTags: set<int> := {SERIALIZER_JDK, SERIALIZER_JSON, SERIALIZER_KRYO}

  /** The message type tags the protocol defines. */
  const MessageTypes: set<int> := {REQUEST_TYPE, RESPONSE_TYPE}

  /** The compressor tags the protocol defines. */
  const CompressorTypes: set<int> := {COMPRESSOR_NONE, COMPRESSOR_GZIP}

  /** The three serializer tags are pairwise distinct, so a tag names one serializer. */
  lemma SerializerTagsDistinct()
    ensures |SerializerTags| == 3
  {
  }

  /**
   * The magic number fits the four-byte unsigned header field, and the version
   * and every one-byte tag fit the signed one-byte fields of the header.
   */
  lemma ConstantsFitHeader()
    ensures 0 <= MAGIC_NUMBER < Pow256(4)
    ensures IsSignedByte(VERSION)
    ensures forall t :: t in MessageTypes ==> IsSignedByte(t)
    ensures forall t :: t in SerializerTags ==> IsSignedByte(t)
    ensures forall t :: t in CompressorTypes ==> IsSignedByte(t)
  {
    assert Pow256(4) == 0x1_0000_0000 by {
      assert Pow256(1) == 256;
      assert Pow256(2) == 65536;
      assert Pow256(3) == 16777216;
    }
  }
}

=== FILE: protocol_message.dfy ===
/**
 * The binary frame of the protocol (`ProtocolMessage`): a fixed 20-byte
 * big-endian header packed with the `struct` format `>IbbbbQI`, then the body.
 *
 *   magic_number u32 | version i8 | serializer_type i8 | message_type i8 |
 *   compressor_type i8 | request_id u64 | body_length u32 | body
 *
 * The one-byte fields use the SIGNED format `b`, although the comment beside the
 * format calls them unsigned; a tag of 128 or more cannot be packed.
 */
module ProtocolMessage {
  import opened Wrappers
  import opened Bytes
  import opened Exceptions
  import opened ProtocolConstants

  /** A frame. Python allows any field to be None; here a field out of range stands for that. */
  datatype Message = Message(
    magicNumber: int,
    version: int,
    serializerType: int,
    messageType: int,
    compressorType: int,
    requestId: int,
    bodyLength: int,
    body: Option<seq<byte>>)

  /** The widths, in bytes, of the header fields in wire order. */
  const FieldWidths: seq<nat> := [4, 1, 1, 1, 1, 8, 4]

  function Sum(s: seq<nat>): nat {
    if |s| == 0 then 0 else s[0] + Sum(s[1..])
  }

  /** `get_header_length`: `struct.calcsize` of the header format, the sum of its field widths. */
  function HeaderLength(): (r: nat)
    ensures r == 20
  {
    Sum(FieldWidths)
  }

  /** The values `struct.pack('>IbbbbQI', ...)` accepts without raising `struct.error`. */
  predicate Packable(m: Message) {
    && 0 <= m.magicNumber < Pow256(4)
    && IsSignedByte(m.version)
    && IsSignedByte(m.serializerType)
    && IsSignedByte(m.messageType)
    && IsSignedByte(m.compressorType)
    && 0 <= m.requestId < Pow256(8)
    && 0 <= m.bodyLength < Pow256(4)
  }

  /** The header bytes; each field reads back, at its fixed offset, as the value packed. */
  function PackHeader(m: Message): (r: seq<byte>)
    requires Packable(m)
    ensures |r| == HeaderLength()
    ensures FromBigEndian(r[0..4]) == m.magicNumber
    ensures FromSignedByte(r[4]) == m.version
    ensures FromSignedByte(r[5]) == m.serializerType
    ensures FromSignedByte(r[6]) == m.messageType
    ensures FromSignedByte(r[7]) == m.compressorType
    ensures FromBigEndian(r[8..16]) == m.requestId
    ensures FromBigEndian(r[16..20]) == m.bodyLength
  {
    var magic := BigEndian(m.magicNumber, 4);
    var tags := [SignedByte(m.version), SignedByte(m.serializerType),
                 SignedByte(m.messageType), SignedByte(m.compressorType)];
    var id := BigEndian(m.requestId, 8);
    var len := BigEndian(m.bodyLength, 4);
    var r := magic + tags + id + len;
    assert r[0..4] == magic && r[8..16] == id && r[16..20] == len;
    FromBigEndianOfBigEndian(m.magicNumber, 4);
    FromBigEndianOfBigEndian(m.requestId, 8);
    FromBigEndianOfBigEndian(m.bodyLength, 4);
    r
  }

  /** `if self.body and self.body_length > 0`: a body is written only when non-empty and announced. */
  predicate WritesBody(m: Message) {
    m.body.Some? && |m.body.value| > 0 && m.bodyLength > 0
  }

  /**
   * `to_bytes`. The body is appended whole when written: its length is not
   * compared with `body_length`.
   */
  function ToBytes(m: Message): (r: Result<seq<byte>, Exception>)
    ensures r.Ok? <==> Packable(m)
    ensures r.Ok? ==> |r.value| == HeaderLength() + (if WritesBody(m) then |m.body.value| else 0)
    ensures r.Ok? ==> r.value[..HeaderLength()] == PackHeader(m)
    ensures r.Ok? && WritesBody(m) ==> r.value[HeaderLength()..] == m.body.value
  {
    if !Packable(m) then Err(StructError("argument out of range"))
    else if WritesBody(m) then Ok(PackHeader(m) + m.body.value)
    else Ok(PackHeader(m))
  }

  function Min(a: int, b: int): int {
    if a <= b then a else b
  }

  /**
   * `from_bytes`. A buffer shorter than the header is a `struct.error`; the magic
   * number is not checked; a body shorter than `body_length` is silently cut
   * short by the slice, and bytes past the announced body are ignored.
   */
  function FromBytes(data: seq<byte>): (r: Result<Message, Exception>)
    ensures r.Err? <==> |data| < HeaderLength()
    ensures r.Ok? ==> Packable(r.value)
    ensures r.Ok? ==> r.value.magicNumber == FromBigEndian(data[..4])
    ensures r.Ok? ==> r.value.version == FromSignedByte(data[4]) && r.value.serializerType == FromSignedByte(data[5])
    ensures r.Ok? ==> r.value.messageType == FromSignedByte(data[6]) && r.value.compressorType == FromSignedByte(data[7])
    ensures r.Ok? ==> r.value.requestId == FromBigEndian(data[8..16])
    ensures r.Ok? ==> r.value.bodyLength == FromBigEndian(data[16..20])
    ensures r.Ok? ==> (r.value.body.None? <==> r.value.bodyLength == 0)
    ensures r.Ok? && r.value.body.Some? ==>
      && |r.value.body.value| == Min(r.value.bodyLength, |data| - HeaderLength())
      && r.value.body.value == data[HeaderLength()..HeaderLength() + |r.value.body.value|]
  {
    if |data| < HeaderLength() then Err(StructError("unpack requires a buffer of 20 bytes"))
    else
      var bodyLength := FromBigEndian(data[16..20]);
      Ok(Message(
        FromBigEndian(data[0..4]),
        FromSignedByte(data[4]),
        FromSignedByte(data[5]),
        FromSignedByte(data[6]),
        FromSignedByte(data[7]),
        FromBigEndian(data[8..16]),
        bodyLength,
        if bodyLength > 0 then Some(data[20..Min(|data|, 20 + bodyLength)]) else None))
  }

  /** A frame whose announced body length is the length of the body it carries. */
  predicate Framed(m: Message) {
    || (m.bodyLength == 0 && m.body == None)
    || (m.body.Some? && |m.body.value| == m.bodyLength > 0)
  }

  /**
   * A frame as the protocol's peers build one: the magic number and version
   * constants, a defined message, serializer and compressor tag, and the body
   * length taken from the body (an empty body is sent as None).
   */
  function NewFrame(messageType: int, serializerType: int, compressorType: int,
                    requestId: int, body: seq<byte>): Message {
    Message(MAGIC_NUMBER, VERSION, serializerType, messageType, compressorType, requestId,
            |body|, if |body| == 0 then None else Some(body))
  }

  /**
   * Every frame built from the protocol's constants packs without a struct
   * error and decodes back to itself; only the request id and the body length
   * are bounded, by their 8- and 4-byte fields.
   */
  lemma ConstantsFrameRoundTrip(messageType: int, serializerType: int, compressorType: int,
                                requestId: int, body: seq<byte>)
    requires messageType in MessageTypes && serializerType in SerializerTags && compressorType in CompressorTypes
    requires 0 <= requestId < Pow256(8) && |body| < Pow256(4)
    ensures ToBytes(NewFrame(messageType, serializerType, compressorType, requestId, body)).Ok?
    ensures FromBytes(ToBytes(NewFrame(messageType, serializerType, compressorType, requestId, body)).value)
            == Ok(NewFrame(messageType, serializerType, compressorType, requestId, body))
  {
    ConstantsFitHeader();
    RoundTrip(NewFrame(messageType, serializerType, compressorType, requestId, body));
  }

  /** Decoding an encoded frame gives it back, field for field. */
  lemma RoundTrip(m: Message)
    requires Packable(m) && Framed(m)
    ensures ToBytes(m).Ok?
    ensures FromBytes(ToBytes(m).value) == Ok(m)
  {
    var data := ToBytes(m).value;
    var h := PackHeader(m);
    assert data[..20] == h;
    assert data[0..4] == h[0..4] && data[8..16] == h[8..16] && data[16..20] == h[16..20];
    assert data[4] == h[4] && data[5] == h[5] && data[6] == h[6] && data[7] == h[7];
    SignedByteRoundTrip(m.version, 0);
    SignedByteRoundTrip(m.serializerType, 0);
    SignedByteRoundTrip(m.messageType, 0);
    SignedByteRoundTrip(m.compressorType, 0);
    if m.bodyLength > 0 {
      assert data[20..Min(|data|, 20 + m.bodyLength)] == m.body.value;
    }
  }

  /**
   * Re-encoding a decoded buffer gives back its header and the part of the body
   * that was read: exactly the bytes the decoder consumed.
   */
  lemma EncodeOfDecode(data: seq<byte>)
    requires |data| >= HeaderLength()
    ensures FromBytes(data).Ok?
    ensures ToBytes(FromBytes(data).value)
         == Ok(data[..HeaderLength() + Min(FromBigEndian(data[16..20]), |data| - HeaderLength())])
  {
    var m := FromBytes(data).value;
    HeaderOfDecoded(data);
    var n := 20 + Min(m.bodyLength, |data| - 20);
    if WritesBody(m) {
      assert data[..n] == data[..20] + data[20..n];
    } else {
      assert n == 20;
    }
  }

  /** The header of a decoded buffer packs back to the buffer's first 20 bytes. */
  lemma HeaderOfDecoded(data: seq<byte>)
    requires |data| >= HeaderLength()
    ensures FromBytes(data).Ok?
    ensures PackHeader(FromBytes(data).value) == data[..HeaderLength()]
  {
    var m := FromBytes(data).value;
    var h := PackHeader(m);
    BigEndianOfFromBigEndian(data[0..4]);
    BigEndianOfFromBigEndian(data[8..16]);
    BigEndianOfFromBigEndian(data[16..20]);
    SignedByteRoundTrip(0, data[4]);
    SignedByteRoundTrip(0, data[5]);
    SignedByteRoundTrip(0, data[6]);
    SignedByteRoundTrip(0, data[7]);
    assert h == data[0..4] + data[4..8] + data[8..16] + data[16..20];
  }

  /** Bytes after the announced body do not change what is decoded. */
  lemma TrailingBytesIgnored(data: seq<byte>, extra: seq<byte>)
    requires |data| >= HeaderLength()
    requires |data| >= HeaderLength() + FromBigEndian(data[16..20])
    ensures FromBytes(data + extra) == FromBytes(data)
  {
    var d := data + extra;
    assert d[0..4] == data[0..4] && d[8..16] == data[8..16] && d[16..20] == data[16..20];
    var bl := FromBigEndian(data[16..20]);
    if bl > 0 {
      assert d[20..Min(|d|, 20 + bl)] == data[20..Min(|data|, 20 + bl)];
    }
  }

  /** A header whose magic number is zero decodes without complaint: there is no magic check. */
  lemma MagicNotValidated()
    ensures FromBytes(seq(20, i => 0)).Ok?
    ensures FromBytes(seq(20, i => 0)).value.magicNumber == 0
    ensures FromBytes(seq(20, i => 0)).value.body == None
  {
    var z: seq<byte> := seq(20, i => 0);
    assert z[0..4] == [0, 0, 0, 0];
    assert z[16..20] == [0, 0, 0, 0];
    assert [0, 0, 0, 0][..3] == [0, 0, 0];
    assert [0, 0, 0][..2] == [0, 0];
    assert [0, 0][..1] == [0];
    assert FromBigEndian([0]) == 0 by { assert [0][..0] == []; }
  }

  /**
   * The encoder does not compare `body_length` with the body: a frame announcing
   * one byte but carrying two encodes, and decodes to a different frame.
   */
  lemma UncheckedBodyLength()
    ensures var m := Message(0xCAFEBABE, 1, 2, 1, 0, 7, 1, Some([10, 20]));
            && ToBytes(m).Ok?
            && |ToBytes(m).value| == 22
            && FromBytes(ToBytes(m).value).Ok?
            && FromBytes(ToBytes(m).value).value.body == Some([10])
            && FromBytes(ToBytes(m).value) != Ok(m)
  {
    var m := Message(0xCAFEBABE, 1, 2, 1, 0, 7, 1, Some([10, 20]));
    assert Pow256(4) == 0x1_0000_0000 by {
      assert Pow256(2) == 65536;
    }
    assert Packable(m);
    var data := ToBytes(m).value;
    var h := PackHeader(m);
    assert data[16..20] == h[16..20];
    assert data[20..21] == [10];
  }
}

=== FILE: provider_bootstrap.dfy ===
/**
 * `ProviderBootstrap`: the services a provider offers, keyed by name, and the
 * registrations `start` makes and `stop` undoes.
 *
 * Each provider owns its own registry (the factory builds a fresh one per
 * `add_service`); the model records the calls made on those registries, and
 * which registrations fail is a parameter. The RPC server `start` would launch
 * is a stub in the source and has no counterpart here.
 *
 * The code as written cannot start any provider: `ServiceProvider.__init__`
 * drops the metadata (line 25) and sets `registry` only when a config is given
 * (lines 27-28), and `start` reads the undefined `SERIALIZER_YAML`. `Start`
 * models the evidently intended behaviour; `StartAsWritten` the code.
 */
module ProviderBootstrap {
  import opened Wrappers
  import opened Exceptions
  import opened ServiceInstances
  import opened Text
  import ProtocolConstants
  import RegistryFactory
  import MemoryRegistry
  import KeyedSeqs

  /** The object implementing a service, known here by identity only. */
  datatype ServiceObject = ServiceObject(id: nat)

  /** `ServiceProvider`. */
  datatype Provider = Provider(
    serviceName: string,
    service: ServiceObject,
    host: string,
    port: int,
    /** Whether a registry was configured (and so built by the factory). */
    hasRegistry: bool,
    metadata: map<string, string>)

  /** `providers`: a dict, which keeps keys in first-insertion order. */
  datatype Bootstrap = Bootstrap(providers: seq<Provider>)

  /** A call the bootstrap makes on a provider's registry. */
  datatype RegistryCall = Register(instance: ServiceInstance) | Unregister(instance: ServiceInstance)

  /** The key of a provider in the bootstrap's dict. */
  function Name(p: Provider): string {
    p.serviceName
  }

  predicate HasRegistry(p: Provider) {
    p.hasRegistry
  }

  /** The providers are keyed by name: no name occurs twice. */
  predicate Valid(b: Bootstrap) {
    KeyedSeqs.UniqueKeys(b.providers, Name)
  }

  /** The provider stored under a name, if any. */
  function Find(b: Bootstrap, name: string): Option<Provider> {
    KeyedSeqs.Find(b.providers, Name, name)
  }

  /**
   * `add_service`: record the provider under its name, replacing any earlier one
   * (last write wins), and return the bootstrap. Building the provider's
   * registry raises `ValueError` for an unsupported registry type, and then
   * nothing is recorded.
   */
  function AddService(b: Bootstrap, name: string, service: ServiceObject, host: string, port: int,
                      config: Option<RegistryFactory.RegistryConfig>,
                      metadata: Option<map<string, string>>): (r: Result<Bootstrap, Exception>)
    requires Valid(b)
    ensures r.Err? <==> config.Some? && RegistryFactory.GetRegistry(config.value).Err?
    ensures r.Ok? ==> Valid(r.value)
    ensures r.Ok? ==> Find(r.value, name)
                      == Some(Provider(name, service, host, port, config.Some?, metadata.GetOr(map[])))
    ensures r.Ok? ==> forall other :: other != name ==> Find(r.value, other) == Find(b, other)
  {
    if config.Some? && RegistryFactory.GetRegistry(config.value).Err? then
      Err(RegistryFactory.GetRegistry(config.value).error)
    else
      var p := Provider(name, service, host, port, config.Some?, metadata.GetOr(map[]));
      KeyedSeqs.PutKeepsUnique(b.providers, Name, p);
      Ok(Bootstrap(KeyedSeqs.Put(b.providers, Name, p)))
  }

  /**
   * The metadata registered for a provider: the protocol version and serializer
   * tag, overlaid by the provider's own metadata, whose keys win.
   */
  function MergedMetadata(own: map<string, string>): (m: map<string, string>)
    ensures m.Keys == own.Keys + {"version", "serializer"}
    ensures forall k :: k in own ==> m[k] == own[k]
    ensures "version" !in own ==> m["version"] == IntToString(ProtocolConstants.VERSION)
    ensures "serializer" !in own ==> m["serializer"] == IntToString(ProtocolConstants.SERIALIZER_JSON)
  {
    map["version" := IntToString(ProtocolConstants.VERSION),
        "serializer" := IntToString(ProtocolConstants.SERIALIZER_JSON)] + own
  }

  /** The instance `start` registers for a provider. */
  function RegisteredInstance(p: Provider): ServiceInstance {
    ServiceInstance(p.serviceName, p.host, p.port, MergedMetadata(p.metadata))
  }

  /** The instance `stop` unregisters for a provider: built without metadata. */
  function StopInstance(p: Provider): ServiceInstance {
    NewInstance(p.serviceName, p.host, p.port)
  }

  /** The providers that have a registry, in order. */
  function WithRegistry(ps: seq<Provider>): seq<Provider> {
    KeyedSeqs.Filter(ps, HasRegistry)
  }

  /** One registration per provider with a registry, in order. */
  function RegisterCalls(ps: seq<Provider>): seq<RegistryCall> {
    seq(|ps|, k requires 0 <= k < |ps| => Register(RegisteredInstance(ps[k])))
  }

  /** One unregistration per provider with a registry, in order. */
  function UnregisterCalls(ps: seq<Provider>): seq<RegistryCall> {
    seq(|ps|, k requires 0 <= k < |ps| => Unregister(StopInstance(ps[k])))
  }

  /**
   * `stop`: unregister every provider that has a registry, whether or not it
   * was registered. The registries' `unregister` reports failure by returning
   * False, which is ignored, so `stop` never raises.
   */
  method Stop(b: Bootstrap) returns (calls: seq<RegistryCall>)
    ensures calls == UnregisterCalls(WithRegistry(b.providers))
  {
    calls := [];
    var i := 0;
    while i < |b.providers|
      invariant 0 <= i <= |b.providers|
      invariant calls == UnregisterCalls(WithRegistry(b.providers[..i]))
    {
      var p := b.providers[i];
      KeyedSeqs.FilterSnoc(b.providers[..i], HasRegistry, p);
      assert b.providers[..i + 1] == b.providers[..i] + [p];
      if p.hasRegistry {
        calls := calls + [Unregister(StopInstance(p))];
      }
      i := i + 1;
    }
    assert b.providers[..i] == b.providers;
  }

  lemma RegisterCallsSnoc(ps: seq<Provider>, p: Provider)
    ensures RegisterCalls(ps + [p]) == RegisterCalls(ps) + [Register(RegisteredInstance(p))]
  {
  }

  /**
   * `start`: register each provider that has a registry, in order. The first
   * registration that fails ends the loop; `stop` is then run and
   * `RuntimeError` raised. `failing` names the providers whose registry refuses.
   */
  method Start(b: Bootstrap, failing: set<string>) returns (calls: seq<RegistryCall>, result: Outcome<Exception>)
    ensures var w := WithRegistry(b.providers);
      result.Pass? <==> forall p :: p in w ==> p.serviceName !in failing
    ensures result.Pass? ==> calls == RegisterCalls(WithRegistry(b.providers))
    ensures result.Fail? ==> result.error.RuntimeError?
    ensures result.Fail? ==> var w := WithRegistry(b.providers);
      exists k :: 0 <= k < |w| && w[k].serviceName in failing
        && (forall j :: 0 <= j < k ==> w[j].serviceName !in failing)
        && calls == RegisterCalls(w[..k + 1]) + UnregisterCalls(w)
  {
    calls := [];
    var i := 0;
    while i < |b.providers|
      invariant 0 <= i <= |b.providers|
      invariant calls == RegisterCalls(WithRegistry(b.providers[..i]))
      invariant forall p :: p in WithRegistry(b.providers[..i]) ==> p.serviceName !in failing
    {
      var p := b.providers[i];
      ghost var before := WithRegistry(b.providers[..i]);
      RegisteredPrefix(b.providers, i);
      if p.hasRegistry {
        if p.serviceName in failing {
          FirstFailure(b.providers, i, failing);
          var undo := Stop(b);
          calls := calls + [Register(RegisteredInstance(p))] + undo;
          result := Fail(RuntimeError("Failed to start provider bootstrap: Failed to register service: "
                                      + p.serviceName));
          return;
        }
        calls := calls + [Register(RegisteredInstance(p))];
      }
      i := i + 1;
    }
    assert b.providers[..i] == b.providers;
    result := Pass;
  }

  /** The registrations for the first i + 1 providers extend those for the first i. */
  lemma RegisteredPrefix(ps: seq<Provider>, i: nat)
    requires i < |ps|
    ensures WithRegistry(ps[..i + 1]) == WithRegistry(ps[..i]) + (if ps[i].hasRegistry then [ps[i]] else [])
    ensures RegisterCalls(WithRegistry(ps[..i + 1]))
            == RegisterCalls(WithRegistry(ps[..i])) + (if ps[i].hasRegistry then [Register(RegisteredInstance(ps[i]))] else [])
  {
    KeyedSeqs.FilterSnoc(ps[..i], HasRegistry, ps[i]);
    assert ps[..i + 1] == ps[..i] + [ps[i]];
  }

  /**
   * When the provider at index i is the first with a registry that fails, it is
   * the k-th provider with a registry, where k counts those before it.
   */
  lemma FirstFailure(ps: seq<Provider>, i: nat, failing: set<string>)
    requires i < |ps| && ps[i].hasRegistry && ps[i].serviceName in failing
    requires forall p :: p in WithRegistry(ps[..i]) ==> p.serviceName !in failing
    ensures var w := WithRegistry(ps);
      var k := |WithRegistry(ps[..i])|;
      && k < |w| && w[k] == ps[i] && ps[i] in w && w[k].serviceName in failing
      && (forall j :: 0 <= j < k ==> w[j].serviceName !in failing)
      && w[..k + 1] == WithRegistry(ps[..i]) + [ps[i]]
      && RegisterCalls(w[..k + 1]) == RegisterCalls(WithRegistry(ps[..i])) + [Register(RegisteredInstance(ps[i]))]
  {
    var w := WithRegistry(ps);
    var pre := WithRegistry(ps[..i]);
    var k := |pre|;
    var q := WithRegistry(ps[..i + 1]);
    KeyedSeqs.FilterSnoc(ps[..i], HasRegistry, ps[i]);
    assert ps[..i + 1] == ps[..i] + [ps[i]];
    assert q == pre + [ps[i]];
    KeyedSeqs.FilterPrefix(ps, HasRegistry, i + 1);
    assert q <= w && |q| == k + 1;
    assert w[..k + 1] == q;
    assert w[k] == ps[i];
    forall j | 0 <= j < k
      ensures w[j].serviceName !in failing
    {
      assert w[j] == pre[j];
      assert pre[j] in pre;
    }
    RegisterCallsSnoc(pre, ps[i]);
  }

  /**
   * The instance `stop` unregisters is never the one `start` registered: it
   * lacks the merged metadata, which always holds a "version" key.
   */
  lemma StopInstanceDiffers(p: Provider)
    ensures StopInstance(p) != RegisteredInstance(p)
  {
    assert "version" in RegisteredInstance(p).metadata;
  }

  /**
   * With instances compared structurally, `stop` leaves the registration in a
   * memory registry in place: the unregister call discards nothing.
   */
  lemma StopLeavesMemoryRegistration(r: MemoryRegistry.Registry, p: Provider)
    ensures var r1 := MemoryRegistry.Register(r, RegisteredInstance(p)).registry;
            var r2 := MemoryRegistry.Unregister(r1, StopInstance(p)).registry;
            RegisteredInstance(p) in MemoryRegistry.ListInstances(r2, p.serviceName)
  {
    StopInstanceDiffers(p);
  }

  /**
   * `stop` as written: a provider built without a registry config has no
   * `registry` attribute, so the loop raises there; the exception is caught and
   * the remaining providers are not unregistered.
   */
  function StopAsWritten(ps: seq<Provider>): (calls: seq<RegistryCall>)
    ensures |calls| <= |ps|
    ensures forall k :: 0 <= k < |calls| ==> ps[k].hasRegistry && calls[k] == Unregister(StopInstance(ps[k]))
    ensures |calls| < |ps| ==> !ps[|calls|].hasRegistry
  {
    if |ps| == 0 || !ps[0].hasRegistry then []
    else [Unregister(StopInstance(ps[0]))] + StopAsWritten(ps[1..])
  }

  /**
   * `start` as written. The first provider raises `AttributeError`: reading
   * `registry` when no config was given, or else `SERIALIZER_YAML` while the
   * metadata is built. No registration happens; `stop` runs and `RuntimeError`
   * is raised. Only a bootstrap with no providers starts.
   */
  function StartAsWritten(b: Bootstrap): (r: (seq<RegistryCall>, Outcome<Exception>))
    ensures r.1.Pass? <==> |b.providers| == 0
    ensures forall c :: c in r.0 ==> c.Unregister?
  {
    if |b.providers| == 0 then ([], Pass)
    else
      var missing := if b.providers[0].hasRegistry then "SERIALIZER_YAML" else "registry";
      (StopAsWritten(b.providers), Fail(RuntimeError("Failed to start provider bootstrap: no attribute " + missing)))
  }

  /**
   * The discrepancy: a bootstrap with one provider and a working registry never
   * registers as written, while the intended `start` registers it.
   */
  method AsWrittenNeverRegisters(b: Bootstrap) returns (intended: Outcome<Exception>)
    requires |b.providers| > 0
    requires forall p :: p in b.providers ==> p.hasRegistry
    ensures StartAsWritten(b).1.Fail?
    ensures forall c :: c in StartAsWritten(b).0 ==> !c.Register?
    ensures intended.Pass?
  {
    var calls;
    calls, intended := Start(b, {});
  }
}

=== FILE: redis_registry.dfy ===
/**
 * `RedisRegistry` over an abstract key-value store standing in for Redis.
 *
 * A service is a Redis hash under `pyrpc:service:<name>` whose fields are
 * instance keys `<host>:<port>` and whose values are the instance's host, port
 * and metadata. Liveness is a separate key `pyrpc:heartbeat:<host>:<port>` set
 * with a 30-second expiry; `list_instances` reports a hash entry only while its
 * heartbeat key exists. Expiry runs on a logical clock (`Tick`).
 *
 * The hash keeps its fields in insertion order, so `get_instance` ("the first
 * listed instance") is determined; Redis leaves that order unspecified.
 */
module RedisRegistry {
  import opened Wrappers
  import opened ServiceInstances
  import opened Text

  const SERVICE_PREFIX: string := "pyrpc:service:"
  const HEARTBEAT_PREFIX: string := "pyrpc:heartbeat:"
  const SERVICE_TTL: nat := 30

  /** `_get_service_key`. */
  function ServiceKey(name: string): (k: string)
    ensures |k| == |SERVICE_PREFIX| + |name|
    ensures k[..|SERVICE_PREFIX|] == SERVICE_PREFIX && k[|SERVICE_PREFIX|..] == name
  {
    SERVICE_PREFIX + name
  }

  /** `_get_instance_key`: `f'{host}:{port}'`. */
  function InstanceKey(host: string, port: int): (k: string)
    ensures |k| == |host| + 1 + |IntToString(port)|
    ensures k[..|host|] == host && k[|host|] == ':'
    ensures k[|host| + 1..] == IntToString(port)
  {
    host + ":" + IntToString(port)
  }

  /** `_get_heartbeat_key`: built from the instance key alone. */
  function HeartbeatKey(instanceKey: string): (k: string)
    ensures |k| == |HEARTBEAT_PREFIX| + |instanceKey|
    ensures k[..|HEARTBEAT_PREFIX|] == HEARTBEAT_PREFIX && k[|HEARTBEAT_PREFIX|..] == instanceKey
  {
    HEARTBEAT_PREFIX + instanceKey
  }

  /** The JSON document stored per instance: `{'host', 'port', 'metadata'}`. */
  datatype InstanceInfo = InstanceInfo(host: string, port: int, metadata: map<string, string>)

  /** One field of a service hash. */
  datatype Field = Field(key: string, info: InstanceInfo)

  datatype Store = Store(
    /** Service key -> the hash's fields, in insertion order. */
    hashes: map<string, seq<Field>>,
    /** Heartbeat key -> seconds until it expires. */
    heartbeats: map<string, nat>)

  function Info(i: ServiceInstance): InstanceInfo {
    InstanceInfo(i.host, i.port, i.metadata)
  }

  /** The instance `list_instances(name)` rebuilds from a stored document. */
  function ToInstance(name: string, info: InstanceInfo): ServiceInstance {
    ServiceInstance(name, info.host, info.port, info.metadata)
  }

  function HashOf(s: Store, key: string): seq<Field> {
    if key in s.hashes then s.hashes[key] else []
  }

  predicate DistinctKeys(h: seq<Field>) {
    forall a, b :: 0 <= a < b < |h| ==> h[a].key != h[b].key
  }

  /** `HSET`: overwrite the field in place, or append it when new. */
  function HSet(h: seq<Field>, key: string, info: InstanceInfo): (r: seq<Field>)
    ensures forall k :: 0 <= k < |r| ==> r[k] == Field(key, info) || (r[k] in h && r[k].key != key)
    ensures forall k :: 0 <= k < |h| && h[k].key != key ==> h[k] in r
    ensures DistinctKeys(h) ==> DistinctKeys(r)
  {
    if |h| == 0 then [Field(key, info)]
    else if h[0].key == key then
      var t := HDel(h[1..], key);
      assert forall k :: 1 <= k < |h| ==> h[k] == h[1..][k - 1];
      assert forall k :: 0 <= k < |t| ==> t[k] in h;
      [Field(key, info)] + t
    else
      var t := HSet(h[1..], key, info);
      assert forall k :: 1 <= k < |h| ==> h[k] == h[1..][k - 1];
      assert forall k :: 0 <= k < |t| ==> t[k] == Field(key, info) || t[k] in h;
      [h[0]] + t
  }

  lemma {:induction false} HSetWrites(h: seq<Field>, key: string, info: InstanceInfo)
    ensures Field(key, info) in HSet(h, key, info)
  {
    if |h| > 0 && h[0].key != key {
      HSetWrites(h[1..], key, info);
    }
  }

  /** `HDEL`: remove the field. */
  function HDel(h: seq<Field>, key: string): (r: seq<Field>)
    ensures forall k :: 0 <= k < |r| ==> r[k] in h && r[k].key != key
    ensures forall k :: 0 <= k < |h| && h[k].key != key ==> h[k] in r
    ensures DistinctKeys(h) ==> DistinctKeys(r)
  {
    if |h| == 0 then []
    else
      var t := HDel(h[1..], key);
      assert forall k :: 1 <= k < |h| ==> h[k] == h[1..][k - 1];
      if h[0].key == key then t else [h[0]] + t
  }

  /** Every service hash has distinct fields, each the instance key of its own document. */
  predicate WellFormed(s: Store) {
    forall sk :: sk in s.hashes ==> HashWellFormed(s.hashes[sk])
  }

  predicate HashWellFormed(h: seq<Field>) {
    && DistinctKeys(h)
    && forall k :: 0 <= k < |h| ==> h[k].key == InstanceKey(h[k].info.host, h[k].info.port)
  }

  /** `_is_instance_alive`: the heartbeat key of the instance key exists. */
  predicate IsAlive(s: Store, instanceKey: string) {
    HeartbeatKey(instanceKey) in s.heartbeats
  }

  /** The loop of `list_instances`: the entries whose heartbeat exists, in hash order. */
  function LiveInstances(s: Store, name: string, h: seq<Field>): (r: seq<ServiceInstance>)
    ensures |r| <= |h|
    ensures forall x :: x in r <==>
      exists k :: 0 <= k < |h| && IsAlive(s, h[k].key) && x == ToInstance(name, h[k].info)
  {
    if |h| == 0 then []
    else
      var rest := LiveInstances(s, name, h[1..]);
      assert forall k :: 1 <= k < |h| ==> h[k] == h[1..][k - 1];
      (if IsAlive(s, h[0].key) then [ToInstance(name, h[0].info)] else []) + rest
  }

  /**
   * `list_instances`. `failAt` says which store command raises, if any: 0 is the
   * `HGETALL`, k > 0 the liveness check of the k-th entry. The exception is
   * caught and the instances collected so far are returned.
   */
  function ListInstances(s: Store, name: string, failAt: Option<nat>): (r: seq<ServiceInstance>)
    ensures failAt == Some(0) ==> r == []
    ensures failAt.None? ==> forall x :: x in r <==>
      exists k :: 0 <= k < |HashOf(s, ServiceKey(name))|
        && IsAlive(s, HashOf(s, ServiceKey(name))[k].key)
        && x == ToInstance(name, HashOf(s, ServiceKey(name))[k].info)
  {
    var h := HashOf(s, ServiceKey(name));
    match failAt
    case None => LiveInstances(s, name, h)
    case Some(k) =>
      if k == 0 then []
      else if k - 1 < |h| then LiveInstances(s, name, h[..k - 1])
      else LiveInstances(s, name, h)
  }

  /** The instances listed when no store command fails. */
  function Listed(s: Store, name: string): seq<ServiceInstance> {
    ListInstances(s, name, None)
  }

  lemma {:induction false} LiveInstancesPrefix(s: Store, name: string, h: seq<Field>, n: nat)
    requires n <= |h|
    ensures LiveInstances(s, name, h[..n]) <= LiveInstances(s, name, h)
  {
    if n > 0 {
      assert h[..n][1..] == h[1..][..n - 1];
      LiveInstancesPrefix(s, name, h[1..], n - 1);
    }
  }

  /** A failing store only ever cuts the listing short: what it returns is a prefix of the full list. */
  lemma FailureTruncatesListing(s: Store, name: string, failAt: Option<nat>)
    ensures ListInstances(s, name, failAt) <= Listed(s, name)
  {
    var h := HashOf(s, ServiceKey(name));
    if failAt.Some? && failAt.value > 0 && failAt.value - 1 < |h| {
      LiveInstancesPrefix(s, name, h, failAt.value - 1);
    }
  }

  /** `get_instance`: the first listed instance, or None. */
  function GetInstance(s: Store, name: string, failAt: Option<nat>): (r: Option<ServiceInstance>)
    ensures r.None? <==> ListInstances(s, name, failAt) == []
    ensures r.Some? ==> r.value == ListInstances(s, name, failAt)[0]
  {
    var instances := ListInstances(s, name, failAt);
    if |instances| > 0 then Some(instances[0]) else None
  }

  /**
   * `register`: one pipelined transaction writes the hash entry and the heartbeat
   * with its 30-second expiry, and True is returned. If the store fails the
   * exception is caught, nothing is written and False is returned.
   */
  function Register(s: Store, i: ServiceInstance, fails: bool): (r: (Store, bool))
    ensures r.1 <==> !fails
    ensures fails ==> r.0 == s
    ensures !fails ==>
      var ik := InstanceKey(i.host, i.port);
      && Field(ik, Info(i)) in HashOf(r.0, ServiceKey(i.serviceName))
      && HeartbeatKey(ik) in r.0.heartbeats
      && r.0.heartbeats[HeartbeatKey(ik)] == SERVICE_TTL
    ensures !fails ==>
      var sk := ServiceKey(i.serviceName);
      var ik := InstanceKey(i.host, i.port);
      && (forall f :: f in HashOf(r.0, sk) ==> f == Field(ik, Info(i)) || (f in HashOf(s, sk) && f.key != ik))
      && (forall f :: f in HashOf(s, sk) && f.key != ik ==> f in HashOf(r.0, sk))
    ensures !fails ==>
      var hk := HeartbeatKey(InstanceKey(i.host, i.port));
      && r.0.heartbeats.Keys == s.heartbeats.Keys + {hk}
      && forall h :: h in s.heartbeats && h != hk ==> r.0.heartbeats[h] == s.heartbeats[h]
    ensures forall sk :: sk != ServiceKey(i.serviceName) ==> HashOf(r.0, sk) == HashOf(s, sk)
  {
    if fails then (s, false)
    else
      var sk := ServiceKey(i.serviceName);
      var ik := InstanceKey(i.host, i.port);
      HSetWrites(HashOf(s, sk), ik, Info(i));
      (Store(s.hashes[sk := HSet(HashOf(s, sk), ik, Info(i))],
             s.heartbeats[HeartbeatKey(ik) := SERVICE_TTL]), true)
  }

  /**
   * `unregister`: one pipelined transaction deletes the hash entry and the
   * heartbeat key, and True is returned; on a store failure, nothing changes and
   * False is returned.
   */
  function Unregister(s: Store, i: ServiceInstance, fails: bool): (r: (Store, bool))
    ensures r.1 <==> !fails
    ensures fails ==> r.0 == s
    ensures !fails ==>
      var ik := InstanceKey(i.host, i.port);
      && (forall f :: f in HashOf(r.0, ServiceKey(i.serviceName)) ==> f.key != ik)
      && HeartbeatKey(ik) !in r.0.heartbeats
    ensures !fails ==>
      var sk := ServiceKey(i.serviceName);
      var ik := InstanceKey(i.host, i.port);
      && (forall f :: f in HashOf(r.0, sk) ==> f in HashOf(s, sk))
      && (forall f :: f in HashOf(s, sk) && f.key != ik ==> f in HashOf(r.0, sk))
      && (forall h :: h in s.heartbeats && h != HeartbeatKey(ik) ==> h in r.0.heartbeats && r.0.heartbeats[h] == s.heartbeats[h])
      && r.0.heartbeats.Keys == s.heartbeats.Keys - {HeartbeatKey(ik)}
    ensures forall sk :: sk != ServiceKey(i.serviceName) ==> HashOf(r.0, sk) == HashOf(s, sk)
  {
    if fails then (s, false)
    else
      var sk := ServiceKey(i.serviceName);
      var ik := InstanceKey(i.host, i.port);
      (Store(s.hashes[sk := HDel(HashOf(s, sk), ik)], s.heartbeats - {HeartbeatKey(ik)}), true)
  }

  /** `subscribe`, which neither stores nor calls the callback: the store is left as it was. */
  function Subscribe(s: Store, name: string, callback: Listener): (r: Store)
    ensures r == s
    ensures forall n, f :: ListInstances(r, n, f) == ListInstances(s, n, f)
  {
    s
  }

  /** `unsubscribe`, which does nothing: the store is left as it was. */
  function Unsubscribe(s: Store, name: string): (r: Store)
    ensures r == s
    ensures forall n, f :: ListInstances(r, n, f) == ListInstances(s, n, f)
  {
    s
  }

  /** The passage of `elapsed` seconds: heartbeats whose expiry has come are gone. */
  function Tick(s: Store, elapsed: nat): (r: Store)
    ensures r.hashes == s.hashes
    ensures forall k :: k in r.heartbeats <==> k in s.heartbeats && s.heartbeats[k] > elapsed
    ensures forall k :: k in r.heartbeats ==> r.heartbeats[k] == s.heartbeats[k] - elapsed
  {
    s.(heartbeats := map k | k in s.heartbeats && s.heartbeats[k] > elapsed :: s.heartbeats[k] - elapsed)
  }

  /** Distinct endpoints get distinct instance keys: the port's digits never contain ':'. */
  lemma InstanceKeyInjective(h1: string, p1: int, h2: string, p2: int)
    requires InstanceKey(h1, p1) == InstanceKey(h2, p2)
    ensures h1 == h2 && p1 == p2
  {
    var d1, d2 := IntToString(p1), IntToString(p2);
    assert ':' !in d1;
    assert ':' !in d2;
    assert InstanceKey(h1, p1) == h1 + [':'] + d1;
    assert InstanceKey(h2, p2) == h2 + [':'] + d2;
    SplitAtLastSeparator(h1, d1, h2, d2, ':');
    IntToStringInjective(p1, p2);
  }

  /**
   * The heartbeat key depends on the endpoint alone: two services on one host
   * and port share one liveness marker, and distinct endpoints never share one.
   */
  lemma HeartbeatKeyPerEndpoint(i: ServiceInstance, j: ServiceInstance)
    ensures HeartbeatKey(InstanceKey(i.host, i.port)) == HeartbeatKey(InstanceKey(j.host, j.port))
        <==> i.host == j.host && i.port == j.port
  {
    var ki, kj := InstanceKey(i.host, i.port), InstanceKey(j.host, j.port);
    if HeartbeatKey(ki) == HeartbeatKey(kj) {
      assert ki == HeartbeatKey(ki)[|HEARTBEAT_PREFIX|..];
      InstanceKeyInjective(i.host, i.port, j.host, j.port);
    }
  }

  /** `HSET` of an instance's own key keeps a hash well formed. */
  lemma HSetWellFormed(h: seq<Field>, info: InstanceInfo)
    requires HashWellFormed(h)
    ensures HashWellFormed(HSet(h, InstanceKey(info.host, info.port), info))
  {
    var ik := InstanceKey(info.host, info.port);
    var h' := HSet(h, ik, info);
    forall k | 0 <= k < |h'|
      ensures h'[k].key == InstanceKey(h'[k].info.host, h'[k].info.port)
    {
      if h'[k] != Field(ik, info) {
        var j :| 0 <= j < |h| && h[j] == h'[k];
      }
    }
  }

  /** `register` keeps the store well formed. */
  lemma RegisterPreservesWellFormed(s: Store, i: ServiceInstance, fails: bool)
    requires WellFormed(s)
    ensures WellFormed(Register(s, i, fails).0)
  {
    if !fails {
      var sk := ServiceKey(i.serviceName);
      HSetWellFormed(HashOf(s, sk), Info(i));
    }
  }

  /** `unregister` keeps the store well formed. */
  lemma UnregisterPreservesWellFormed(s: Store, i: ServiceInstance, fails: bool)
    requires WellFormed(s)
    ensures WellFormed(Unregister(s, i, fails).0)
  {
  }

  /** After a successful `register(i)`, `i` is listed under its service name. */
  lemma RegisterThenListed(s: Store, i: ServiceInstance)
    ensures i in Listed(Register(s, i, false).0, i.serviceName)
  {
    var s' := Register(s, i, false).0;
    var h := HashOf(s', ServiceKey(i.serviceName));
    var k :| 0 <= k < |h| && h[k] == Field(InstanceKey(i.host, i.port), Info(i));
    assert ToInstance(i.serviceName, h[k].info) == i;
  }

  /** A listed instance's heartbeat key exists: the hash entry alone is not enough. */
  lemma ListedIsAlive(s: Store, name: string, x: ServiceInstance)
    requires WellFormed(s)
    requires x in Listed(s, name)
    ensures HeartbeatKey(InstanceKey(x.host, x.port)) in s.heartbeats
  {
    var h := HashOf(s, ServiceKey(name));
    var k :| 0 <= k < |h| && IsAlive(s, h[k].key) && x == ToInstance(name, h[k].info);
  }

  /** After a successful `unregister(i)`, no instance on `i`'s endpoint is listed under its name. */
  lemma UnregisterThenNotListed(s: Store, i: ServiceInstance)
    requires WellFormed(s)
    ensures forall x :: x in Listed(Unregister(s, i, false).0, i.serviceName) ==>
      !(x.host == i.host && x.port == i.port)
  {
    var s' := Unregister(s, i, false).0;
    UnregisterPreservesWellFormed(s, i, false);
    forall x | x in Listed(s', i.serviceName)
      ensures !(x.host == i.host && x.port == i.port)
    {
      ListedIsAlive(s', i.serviceName, x);
    }
  }

  /**
   * Unregistering one service's instance also hides every other service's
   * instance on the same endpoint, whose hash entry nevertheless stays.
   */
  lemma UnregisterHidesSharedEndpoint(s: Store, i: ServiceInstance, j: ServiceInstance)
    requires WellFormed(s)
    requires i.serviceName != j.serviceName && i.host == j.host && i.port == j.port
    ensures var s' := Unregister(s, i, false).0;
            && HashOf(s', ServiceKey(j.serviceName)) == HashOf(s, ServiceKey(j.serviceName))
            && forall x :: x in Listed(s', j.serviceName) ==> !(x.host == j.host && x.port == j.port)
  {
    var s' := Unregister(s, i, false).0;
    UnregisterPreservesWellFormed(s, i, false);
    assert ServiceKey(i.serviceName) != ServiceKey(j.serviceName) by {
      assert ServiceKey(i.serviceName)[|SERVICE_PREFIX|..] != ServiceKey(j.serviceName)[|SERVICE_PREFIX|..];
    }
    forall x | x in Listed(s', j.serviceName)
      ensures !(x.host == j.host && x.port == j.port)
    {
      ListedIsAlive(s', j.serviceName, x);
    }
  }

  /**
   * Registering `i` keeps every instance already listed, except one on `i`'s own
   * endpoint under `i`'s own name, whose entry `i` replaces.
   */
  lemma RegisterKeepsOthersListed(s: Store, i: ServiceInstance, name: string, x: ServiceInstance)
    requires WellFormed(s)
    requires x in Listed(s, name)
    requires name != i.serviceName || x.host != i.host || x.port != i.port
    ensures x in Listed(Register(s, i, false).0, name)
  {
    var f := ListedEntry(s, name, x);
    if name == i.serviceName && f.key == InstanceKey(i.host, i.port) {
      InstanceKeyInjective(x.host, x.port, i.host, i.port);
      assert false;
    }
    RegisterKeepsEntry(s, i, name, f);
    EntryListed(Register(s, i, false).0, name, f);
  }

  /** A listed instance comes from a live entry of its service's hash, keyed by its endpoint. */
  lemma ListedEntry(s: Store, name: string, x: ServiceInstance) returns (f: Field)
    requires WellFormed(s)
    requires x in Listed(s, name)
    ensures f in HashOf(s, ServiceKey(name)) && IsAlive(s, f.key) && x == ToInstance(name, f.info)
    ensures f.key == InstanceKey(x.host, x.port)
  {
    var h := HashOf(s, ServiceKey(name));
    var k :| 0 <= k < |h| && IsAlive(s, h[k].key) && x == ToInstance(name, h[k].info);
    f := h[k];
    assert ServiceKey(name) in s.hashes;
  }

  /** A live entry of a service's hash is listed. */
  lemma EntryListed(s: Store, name: string, f: Field)
    requires f in HashOf(s, ServiceKey(name)) && IsAlive(s, f.key)
    ensures ToInstance(name, f.info) in Listed(s, name)
  {
    var h := HashOf(s, ServiceKey(name));
    var k :| 0 <= k < |h| && h[k] == f;
  }

  /** A hash entry other than the one `register` writes survives it, and so does its heartbeat. */
  lemma RegisterKeepsEntry(s: Store, i: ServiceInstance, name: string, f: Field)
    requires f in HashOf(s, ServiceKey(name))
    requires name != i.serviceName || f.key != InstanceKey(i.host, i.port)
    ensures f in HashOf(Register(s, i, false).0, ServiceKey(name))
    ensures IsAlive(s, f.key) ==> IsAlive(Register(s, i, false).0, f.key)
  {
    if name != i.serviceName {
      assert ServiceKey(i.serviceName)[|SERVICE_PREFIX|..] != ServiceKey(name)[|SERVICE_PREFIX|..];
    } else {
      var h := HashOf(s, ServiceKey(name));
      var k :| 0 <= k < |h| && h[k] == f;
    }
  }

  /** Distinct instance keys have distinct heartbeat keys. */
  lemma HeartbeatKeyInjective(k1: string, k2: string)
    requires k1 != k2
    ensures HeartbeatKey(k1) != HeartbeatKey(k2)
  {
    assert HeartbeatKey(k1)[|HEARTBEAT_PREFIX|..] != HeartbeatKey(k2)[|HEARTBEAT_PREFIX|..];
  }

  /** A hash entry on another endpoint survives `unregister`, and so does its heartbeat. */
  lemma UnregisterKeepsEntry(s: Store, i: ServiceInstance, name: string, f: Field)
    requires f in HashOf(s, ServiceKey(name))
    requires f.key != InstanceKey(i.host, i.port)
    ensures f in HashOf(Unregister(s, i, false).0, ServiceKey(name))
    ensures IsAlive(s, f.key) ==> IsAlive(Unregister(s, i, false).0, f.key)
  {
    HeartbeatKeyInjective(f.key, InstanceKey(i.host, i.port));
  }

  /**
   * Unregistering `i` keeps every instance listed on another endpoint, under
   * every service name.
   */
  lemma UnregisterKeepsOthersListed(s: Store, i: ServiceInstance, name: string, x: ServiceInstance)
    requires WellFormed(s)
    requires x in Listed(s, name)
    requires x.host != i.host || x.port != i.port
    ensures x in Listed(Unregister(s, i, false).0, name)
  {
    var f := ListedEntry(s, name, x);
    if f.key == InstanceKey(i.host, i.port) {
      InstanceKeyInjective(x.host, x.port, i.host, i.port);
      assert false;
    }
    UnregisterKeepsEntry(s, i, name, f);
    EntryListed(Unregister(s, i, false).0, name, f);
  }

  /** `_is_instance_alive` after time passes: the heartbeat is still there exactly when its TTL had not run out. */
  lemma AliveAfterTick(s: Store, instanceKey: string, elapsed: nat)
    ensures IsAlive(Tick(s, elapsed), instanceKey) <==>
      IsAlive(s, instanceKey) && s.heartbeats[HeartbeatKey(instanceKey)] > elapsed
  {
  }

  /** Letting `a` and then `b` seconds pass is letting `a + b` seconds pass. */
  lemma TickAdditive(s: Store, a: nat, b: nat)
    ensures Tick(Tick(s, a), b) == Tick(s, a + b)
  {
    var t1 := Tick(Tick(s, a), b);
    var t2 := Tick(s, a + b);
    assert t1.heartbeats.Keys == t2.heartbeats.Keys;
    assert forall k :: k in t1.heartbeats ==> t1.heartbeats[k] == t2.heartbeats[k];
  }

  /**
   * Without renewal, a registration stays listed while less than the TTL has
   * passed, and no instance on its endpoint is listed once the TTL has passed.
   */
  lemma ExpiryWithoutRenewal(s: Store, i: ServiceInstance, elapsed: nat)
    requires WellFormed(s)
    ensures var s' := Tick(Register(s, i, false).0, elapsed);
            && (elapsed < SERVICE_TTL ==> i in Listed(s', i.serviceName))
            && (elapsed >= SERVICE_TTL ==>
                  forall x :: x in Listed(s', i.serviceName) ==> !(x.host == i.host && x.port == i.port))
  {
    var s1 := Register(s, i, false).0;
    var ik := InstanceKey(i.host, i.port);
    RegisterPreservesWellFormed(s, i, false);
    if elapsed < SERVICE_TTL {
      EntryListed(Tick(s1, elapsed), i.serviceName, Field(ik, Info(i)));
      assert ToInstance(i.serviceName, Info(i)) == i;
    } else {
      GoneOnceExpired(s1, i.serviceName, i.host, i.port, elapsed);
    }
  }

  /** Once an endpoint's heartbeat has run out, nothing on that endpoint is listed. */
  lemma GoneOnceExpired(s: Store, name: string, host: string, port: int, elapsed: nat)
    requires WellFormed(s)
    requires var hk := HeartbeatKey(InstanceKey(host, port));
      hk in s.heartbeats ==> s.heartbeats[hk] <= elapsed
    ensures forall x :: x in Listed(Tick(s, elapsed), name) ==> !(x.host == host && x.port == port)
  {
    var s' := Tick(s, elapsed);
    forall x | x in Listed(s', name)
      ensures !(x.host == host && x.port == port)
    {
      ListedIsAlive(s', name, x);
    }
  }
}

=== FILE: registry_factory.dfy ===
/** `RegistryFactory.get_registry`: a case-insensitive lookup in a table of registry types. */
module RegistryFactory {
  import opened Wrappers
  import opened Exceptions
  import opened Text
  import MemoryRegistry

  /** The fields of `RegistryConfig` the factory reads; the rest are connection settings. */
  datatype RegistryConfig = RegistryConfig(registryType: string, address: string)

  /** The registry classes the table can name. */
  datatype RegistryKind = Memory

  /** `_registry_types`: only the in-memory registry is listed; Redis is not. */
  const RegistryTypes: map<string, RegistryKind> := map["memory" := Memory]

  /**
   * `get_registry`: the lower-cased type must be in the table; the class found is
   * instantiated afresh, so every call yields a new, empty registry.
   */
  function GetRegistry(config: RegistryConfig): (r: Result<MemoryRegistry.Registry, Exception>)
    ensures r.Ok? <==> Lower(config.registryType) == "memory"
    ensures r.Ok? ==> forall name :: MemoryRegistry.ListInstances(r.value, name) == {}
    ensures r.Ok? ==> forall name :: MemoryRegistry.ListenersOf(r.value, name) == {}
    ensures r.Ok? ==> r.value.services.Keys == {} && r.value.listeners.Keys == {}
    ensures r.Err? ==> r.error == ValueError("Unsupported registry type: " + config.registryType)
  {
    var key := Lower(config.registryType);
    if key in RegistryTypes then
      match RegistryTypes[key]
      case Memory => Ok(MemoryRegistry.Empty())
    else
      Err(ValueError("Unsupported registry type: " + config.registryType))
  }

  /** Two type names that differ only in the case of their letters get the same answer. */
  lemma CaseInsensitive(c1: RegistryConfig, c2: RegistryConfig)
    requires |c1.registryType| == |c2.registryType|
    requires forall i :: 0 <= i < |c1.registryType| ==> SameIgnoringCase(c1.registryType[i], c2.registryType[i])
    ensures GetRegistry(c1).Ok? <==> GetRegistry(c2).Ok?
  {
    LowerEqual(c1.registryType, c2.registryType);
  }

  /** The accepted type names are exactly the spellings of "memory" in any mix of cases. */
  lemma AcceptedSpellings(c: RegistryConfig)
    ensures GetRegistry(c).Ok? <==>
      |c.registryType| == 6 && forall i :: 0 <= i < 6 ==> SameIgnoringCase(c.registryType[i], "memory"[i])
  {
    assert Lower("memory") == "memory";
    LowerEqual(c.registryType, "memory");
  }

  /** "MEMORY" and "Memory" are accepted; "redis" and the misspelt "memrory" are refused. */
  lemma KnownTypes()
    ensures GetRegistry(RegistryConfig("MEMORY", "localhost:8000")).Ok?
    ensures GetRegistry(RegistryConfig("Memory", "localhost:8000")).Ok?
    ensures GetRegistry(RegistryConfig("redis", "localhost:6379")).Err?
    ensures GetRegistry(RegistryConfig("memrory", "localhost:8000")).Err?
  {
    assert Lower("MEMORY") == "memory";
    assert Lower("Memory") == "memory";
    assert Lower("redis") == "redis";
    assert Lower("memrory") == "memrory";
  }
}

=== FILE: rpc_model.dfy ===
/** The request and response records the HTTP generation pickles over the wire. */
module RpcModel {
  import opened Wrappers
  import opened Exceptions

  /** The Python values the model passes as arguments and results. */
  datatype Value =
    | NoneValue
    | BoolValue(b: bool)
    | IntValue(i: int)
    | StrValue(s: string)
    | ListValue(items: seq<Value>)

  /** `RpcRequest`; parameter types are kept by name and never consulted. */
  datatype RpcRequest = RpcRequest(
    serviceName: string,
    methodName: string,
    parameterTypes: seq<string>,
    args: seq<Value>)

  /** `RpcResponse`; `message` defaults to "" and `exception` to None. */
  datatype RpcResponse = RpcResponse(data: Value, message: string, exception: Option<Exception>)

  /** `RpcResponse(data=result)`. */
  function Success(data: Value): (r: RpcResponse)
    ensures r.data == data && r.message == "" && r.exception.None?
  {
    RpcResponse(data, "", None)
  }

  /** `RpcResponse(data=None, exception=e)`. */
  function Failure(e: Exception): (r: RpcResponse)
    ensures r.data == NoneValue && r.message == "" && r.exception == Some(e)
  {
    RpcResponse(NoneValue, "", Some(e))
  }
}

=== FILE: rpc_server.dfy ===
/**
 * The decision logic of `RpcHandler.do_POST`: read the request body,
 * deserialize it, look the service up in the local registry, call the named
 * method with the request's arguments, and answer 200 with the result or 500
 * with the exception. Sockets and the response writing are not modelled: the
 * handler's outcome is a `Reply` value.
 */
module RpcServer {
  import opened Wrappers
  import opened Exceptions
  import opened Bytes
  import Text
  import opened RpcModel
  import LocalRegistries

  /** A method of a service object: a call on positional arguments that returns or raises. */
  datatype Method = Method(call: seq<Value> -> Result<Value, Exception>)

  /** A service object, reduced to its methods by name (`getattr`). */
  datatype Service = Service(methods: map<string, Method>)

  type Registry = LocalRegistries.LocalRegistry<Service>

  /** What the handler sends: the status code and the pickled response. */
  datatype Reply = Reply(status: int, response: RpcResponse)

  /**
   * Lookup and call (the body of the `try`): an unknown service is the
   * registry's `KeyError`, an unknown method `getattr`'s `AttributeError`,
   * and an exception raised by the method is passed on; each gives 500. A
   * method that returns gives 200 with its result.
   */
  function Invoke(reg: Registry, request: RpcRequest): (r: Reply)
    ensures r.status == 200 || r.status == 500
    ensures r.status == 200 <==> r.response.exception.None?
    ensures r.status == 200 <==>
      request.serviceName in reg.services
      && request.methodName in reg.services[request.serviceName].methods
      && reg.services[request.serviceName].methods[request.methodName].call(request.args).Ok?
    ensures r.status == 200 ==>
      r.response == Success(reg.services[request.serviceName].methods[request.methodName].call(request.args).value)
    ensures request.serviceName !in reg.services ==> r == Reply(500, Failure(KeyError(request.serviceName)))
    ensures request.serviceName in reg.services
      && request.methodName !in reg.services[request.serviceName].methods
      ==> r == Reply(500, Failure(AttributeError(request.methodName)))
    ensures request.serviceName in reg.services
      && request.methodName in reg.services[request.serviceName].methods
      && reg.services[request.serviceName].methods[request.methodName].call(request.args).Err?
      ==> r == Reply(500, Failure(reg.services[request.serviceName].methods[request.methodName].call(request.args).error))
    ensures r.status == 500 ==> r.response.data == NoneValue
    ensures r.response.message == ""
  {
    match LocalRegistries.GetService(reg, request.serviceName)
    case Err(e) => Reply(500, Failure(e))
    case Ok(service) =>
      if request.methodName !in service.methods then
        Reply(500, Failure(AttributeError(request.methodName)))
      else
        match service.methods[request.methodName].call(request.args)
        case Ok(result) => Reply(200, Success(result))
        case Err(e) => Reply(500, Failure(e))
  }

  /** Request headers in arrival order. */
  type Headers = seq<(string, string)>

  /** `headers.get(name)`: the first header whose name matches, ignoring case. */
  function HeaderGet(headers: Headers, name: string): (r: Option<string>)
    ensures r.None? <==> forall k :: 0 <= k < |headers| ==> Text.Lower(headers[k].0) != Text.Lower(name)
    ensures r.Some? ==>
      (exists k :: 0 <= k < |headers| && Text.Lower(headers[k].0) == Text.Lower(name)
        && r.value == headers[k].1
        && forall j :: 0 <= j < k ==> Text.Lower(headers[j].0) != Text.Lower(name))
  {
    if |headers| == 0 then None
    else if Text.Lower(headers[0].0) == Text.Lower(name) then Some(headers[0].1)
    else
      var r := HeaderGet(headers[1..], name);
      assert forall k :: 1 <= k < |headers| ==> headers[k] == headers[1..][k - 1];
      r
  }

  /**
   * `int(headers.get('Content-Length', 0))`: 0 when the header is absent,
   * `ValueError` when its value is not an integer literal.
   */
  function ContentLength(headers: Headers): (r: Result<int, Exception>)
    ensures HeaderGet(headers, "Content-Length").None? ==> r == Ok(0)
    ensures HeaderGet(headers, "Content-Length").Some? ==>
      (r.Ok? <==> Text.ParseInt(HeaderGet(headers, "Content-Length").value).Some?)
    ensures r.Ok? && HeaderGet(headers, "Content-Length").Some? ==>
      r.value == Text.ParseInt(HeaderGet(headers, "Content-Length").value).value
    ensures r.Err? ==> r.error.ValueError?
  {
    match HeaderGet(headers, "Content-Length")
    case None => Ok(0)
    case Some(v) =>
      match Text.ParseInt(v)
      case Some(n) => Ok(n)
      case None => Err(ValueError("invalid literal for int() with base 10: '" + v + "'"))
  }

  /** `rfile.read(n)`: up to n bytes of what is left on the stream; a negative n reads to the end. */
  function Read(input: seq<byte>, n: int): (r: seq<byte>)
    ensures n < 0 ==> r == input
    ensures 0 <= n ==> |r| == if n <= |input| then n else |input|
    ensures r <= input
  {
    if n < 0 then input else if n <= |input| then input[..n] else input
  }

  /**
   * `do_POST`. A Content-Length that is not an integer raises before the
   * `try` and escapes the handler (`Err`); otherwise the handler replies.
   * Deserializing (pickle, abstract here) may raise, which also gives 500.
   */
  function DoPost(reg: Registry, headers: Headers, input: seq<byte>,
                  deserialize: seq<byte> -> Result<RpcRequest, Exception>): (r: Result<Reply, Exception>)
    ensures r.Err? <==> ContentLength(headers).Err?
    ensures r.Ok? ==>
      var body := Read(input, ContentLength(headers).value);
      match deserialize(body)
      case Err(e) => r.value == Reply(500, Failure(e))
      case Ok(request) => r.value == Invoke(reg, request)
  {
    var n :- ContentLength(headers);
    var body := Read(input, n);
    match deserialize(body)
    case Err(e) => Ok(Reply(500, Failure(e)))
    case Ok(request) => Ok(Invoke(reg, request))
  }

  /** Bytes after the declared Content-Length never reach the deserializer. */
  lemma TrailingInputIgnored(reg: Registry, headers: Headers, input: seq<byte>, extra: seq<byte>,
                             deserialize: seq<byte> -> Result<RpcRequest, Exception>)
    requires ContentLength(headers) == Ok(|input|)
    ensures DoPost(reg, headers, input + extra, deserialize) == DoPost(reg, headers, input, deserialize)
  {
    assert (input + extra)[..|input|] == input;
    assert Read(input + extra, |input|) == input == Read(input, |input|);
  }

  /** Without a Content-Length header the handler reads nothing and deserializes the empty body. */
  lemma MissingContentLengthReadsNothing(reg: Registry, headers: Headers, input: seq<byte>,
                                         deserialize: seq<byte> -> Result<RpcRequest, Exception>)
    requires HeaderGet(headers, "Content-Length").None?
    ensures DoPost(reg, headers, input, deserialize) == DoPost(reg, headers, [], deserialize)
  {
  }

  /** The header name is matched without regard to case. */
  lemma HeaderNameCaseInsensitive(input: seq<byte>)
    ensures ContentLength([("content-length", "12")]) == Ok(12)
    ensures ContentLength([("CONTENT-LENGTH", "-1")]) == Ok(-1)
    ensures ContentLength([("Content-Length", "twelve")]).Err?
  {
    assert Text.Lower("content-length") == Text.Lower("Content-Length");
    assert Text.Lower("CONTENT-LENGTH") == Text.Lower("Content-Length");
    assert Text.ParseInt("12") == Some(12) by {
      assert Text.DigitsValue("1") == 1;
      assert "12"[..1] == "1";
    }
    assert Text.ParseInt("-1") == Some(-1) by {
      assert "-1"[1..] == "1";
      assert !Text.IsDigit('-');
    }
    assert !Text.IsDigit('t');
  }

  /**
   * A service registered in the local registry is served: calling one of its
   * methods answers 200 with exactly what the method returns for the
   * request's arguments, or 500 with what it raises.
   */
  lemma RegisteredServiceIsServed(reg: Registry, name: string, service: Service, request: RpcRequest)
    requires request.serviceName == name
    requires request.methodName in service.methods
    ensures var r := Invoke(LocalRegistries.Register(reg, name, service), request);
      match service.methods[request.methodName].call(request.args)
      case Ok(v) => r == Reply(200, Success(v))
      case Err(e) => r == Reply(500, Failure(e))
  {
  }
}

=== FILE: serializer_factory.dfy ===
/**
 * `SerializerFactory.get_serializer`: dispatch on the header's serializer tag,
 * remembering the result in a cache shared by all callers.
 *
 * The source also has a branch for a YAML tag, but `ProtocolConstants` defines
 * no such tag: evaluating the comparison raises `AttributeError`. `GetSerializer`
 * models the factory without that branch, so an unsupported tag raises the
 * `ValueError` the code intends; `GetSerializerAsWritten` keeps the failure.
 */
module SerializerFactory {
  import opened Wrappers
  import opened Exceptions
  import opened Text
  import ProtocolConstants

  /** The serializer the JSON tag selects; a library wrapper outside this model. */
  datatype SerializerKind = JsonSerializer

  /** `_serializers`: tag -> serializer, filled on first use. */
  type Cache = map<int, SerializerKind>

  /** A cache `get_serializer` can have produced: it holds the JSON serializer at most. */
  predicate ValidCache(c: Cache) {
    forall t :: t in c ==> t == ProtocolConstants.SERIALIZER_JSON && c[t] == JsonSerializer
  }

  /**
   * `get_serializer`. A cached tag is answered from the cache; the JSON tag is
   * resolved and cached; any other tag raises `ValueError` and leaves the cache alone.
   */
  function GetSerializer(cache: Cache, tag: int): (r: (Cache, Result<SerializerKind, Exception>))
    ensures tag in cache ==> r == (cache, Ok(cache[tag]))
    ensures r.1.Ok? ==> tag in r.0 && r.0[tag] == r.1.value
    ensures r.1.Ok? <==> tag in cache || tag == ProtocolConstants.SERIALIZER_JSON
    ensures r.1.Err? ==> r.0 == cache
    ensures r.1.Err? ==> r.1.error == ValueError("Unsupported serializer type: " + IntToString(tag))
    ensures r.0.Keys == cache.Keys + (if r.1.Ok? then {tag} else {})
    ensures forall t :: t in cache ==> r.0[t] == cache[t]
  {
    if tag in cache then (cache, Ok(cache[tag]))
    else if tag == ProtocolConstants.SERIALIZER_JSON then
      (cache[tag := JsonSerializer], Ok(JsonSerializer))
    else
      (cache, Err(ValueError("Unsupported serializer type: " + IntToString(tag))))
  }

  /** The factory only ever produces caches holding the JSON serializer. */
  lemma GetSerializerKeepsCacheValid(cache: Cache, tag: int)
    requires ValidCache(cache)
    ensures ValidCache(GetSerializer(cache, tag).0)
    ensures GetSerializer(cache, tag).1.Ok? <==> tag == ProtocolConstants.SERIALIZER_JSON
  {
  }

  /** Asking twice for the same tag answers the same and changes the cache no further. */
  lemma GetSerializerIdempotent(cache: Cache, tag: int)
    ensures var (c1, r1) := GetSerializer(cache, tag);
            GetSerializer(c1, tag) == (c1, r1)
  {
  }

  /** The JSON tag yields the JSON serializer from an empty cache; the JDK and KRYO tags are refused. */
  lemma TagDispatch()
    ensures GetSerializer(map[], ProtocolConstants.SERIALIZER_JSON).1 == Ok(JsonSerializer)
    ensures GetSerializer(map[], ProtocolConstants.SERIALIZER_JDK).1.Err?
    ensures GetSerializer(map[], ProtocolConstants.SERIALIZER_KRYO).1.Err?
  {
  }

  /**
   * `get_serializer` as written: every uncached tag other than JSON reaches the
   * comparison with the missing `SERIALIZER_YAML` and raises `AttributeError`.
   */
  function GetSerializerAsWritten(cache: Cache, tag: int): (r: (Cache, Result<SerializerKind, Exception>))
    ensures r.1.Err? ==> r.0 == cache && r.1.error == AttributeError("SERIALIZER_YAML")
    ensures r.1.Ok? <==> tag in cache || tag == ProtocolConstants.SERIALIZER_JSON
  {
    if tag in cache then (cache, Ok(cache[tag]))
    else if tag == ProtocolConstants.SERIALIZER_JSON then
      (cache[tag := JsonSerializer], Ok(JsonSerializer))
    else
      (cache, Err(AttributeError("SERIALIZER_YAML")))
  }

  /**
   * For every unsupported tag the code as written raises `AttributeError` where
   * the corrected factory raises `ValueError`; on supported tags they agree.
   */
  lemma AsWrittenRaisesWrongError(cache: Cache, tag: int)
    ensures GetSerializerAsWritten(cache, tag).1.Ok? <==> GetSerializer(cache, tag).1.Ok?
    ensures GetSerializer(cache, tag).1.Ok? ==> GetSerializerAsWritten(cache, tag) == GetSerializer(cache, tag)
    ensures GetSerializer(cache, tag).1.Err? ==>
      && GetSerializerAsWritten(cache, tag).1.error.AttributeError?
      && GetSerializer(cache, tag).1.error.ValueError?
  {
  }
}

=== FILE: service_instance.dfy ===
/**
 * `ServiceInstance`, whose defining file (`pyrpc_core/registry/registry.py`) is
 * not part of this model. It is taken as an immutable record compared
 * structurally, metadata included; metadata defaults to the empty map.
 */
module ServiceInstances {

  datatype ServiceInstance = ServiceInstance(
    serviceName: string,
    host: string,
    port: int,
    metadata: map<string, string>)

  /** A callback handed to `subscribe`; callbacks are compared by identity. */
  datatype Listener = Listener(id: nat)

  /** `ServiceInstance(service_name=..., host=..., port=...)` with the default metadata. */
  function NewInstance(serviceName: string, host: string, port: int): (r: ServiceInstance)
    ensures r.serviceName == serviceName && r.host == host && r.port == port
    ensures r.metadata == map[]
  {
    ServiceInstance(serviceName, host, port, map[])
  }
}

=== FILE: text.dfy ===
/** String helpers the registry code gets from Python's `str`. */
module Text {
  import opened Wrappers

  /** `str.lower()` on one character, for the ASCII letters. */
  function LowerChar(c: char): char {
    if 'A' <= c <= 'Z' then (c as int + 32) as char else c
  }

  /** `str.lower()`: every ASCII capital replaced by its small letter, all else kept. */
  function Lower(s: string): (r: string)
    ensures |r| == |s|
    ensures forall i :: 0 <= i < |s| ==> r[i] == LowerChar(s[i])
  {
    seq(|s|, i requires 0 <= i < |s| => LowerChar(s[i]))
  }

  predicate IsUpper(c: char) {
    'A' <= c <= 'Z'
  }

  /** Two characters that are the same letter up to ASCII case, or simply equal. */
  predicate SameIgnoringCase(a: char, b: char) {
    || a == b
    || (IsUpper(a) && b as int == a as int + 32)
    || (IsUpper(b) && a as int == b as int + 32)
  }

  lemma LowerCharEqual(a: char, b: char)
    ensures LowerChar(a) == LowerChar(b) <==> SameIgnoringCase(a, b)
  {
  }

  /**
   * Comparing lower-cased strings, as the registry factory and the header
   * lookup do, is comparing character by character up to ASCII case.
   */
  lemma {:induction false} LowerEqual(s: string, t: string)
    ensures Lower(s) == Lower(t) <==>
      |s| == |t| && forall i :: 0 <= i < |s| ==> SameIgnoringCase(s[i], t[i])
  {
    forall i | 0 <= i < |s| && i < |t| {
      LowerCharEqual(s[i], t[i]);
    }
    if |s| == |t| && forall i :: 0 <= i < |s| ==> SameIgnoringCase(s[i], t[i]) {
      assert forall i :: 0 <= i < |s| ==> Lower(s)[i] == Lower(t)[i];
    }
  }

  function DigitChar(d: nat): (c: char)
    requires d < 10
    ensures '0' <= c <= '9'
  {
    ('0' as int + d) as char
  }

  /** The decimal digits of n, most significant first, without leading zeros. */
  function NatToString(n: nat): (r: string)
    ensures |r| >= 1
    ensures forall i :: 0 <= i < |r| ==> '0' <= r[i] <= '9'
    ensures (|r| == 1) <==> n < 10
    ensures r[0] == '0' <==> n == 0
  {
    if n < 10 then [DigitChar(n)]
    else NatToString(n / 10) + [DigitChar(n % 10)]
  }

  /** `str(i)` for an int: an optional minus sign and the decimal digits. */
  function IntToString(i: int): (r: string)
    ensures |r| >= 1
    ensures forall k :: 0 <= k < |r| ==> r[k] == '-' || '0' <= r[k] <= '9'
    ensures (r[0] == '-') <==> i < 0
    ensures var d := if i < 0 then 1 else 0;
      && |r| > d
      && (forall k :: d <= k < |r| ==> '0' <= r[k] <= '9')
      && (r[d] == '0' <==> i == 0)
  {
    if i < 0 then "-" + NatToString(-i) else NatToString(i)
  }

  lemma {:induction false} NatToStringInjective(a: nat, b: nat)
    requires NatToString(a) == NatToString(b)
    ensures a == b
  {
    if a >= 10 && b >= 10 {
      var sa := NatToString(a);
      assert sa[..|sa| - 1] == NatToString(a / 10);
      assert NatToString(b)[..|sa| - 1] == NatToString(b / 10);
      NatToStringInjective(a / 10, b / 10);
      assert DigitChar(a % 10) == DigitChar(b % 10);
    }
  }

  /** Distinct ints print differently. */
  lemma IntToStringInjective(a: int, b: int)
    requires IntToString(a) == IntToString(b)
    ensures a == b
  {
    if a < 0 {
      assert IntToString(a)[1..] == NatToString(-a);
      assert IntToString(b)[1..] == NatToString(-b);
      NatToStringInjective(-a, -b);
    } else {
      NatToStringInjective(a, b);
    }
  }

  /** The index of the last occurrence of c in s, or -1. */
  function LastIndexOf(s: string, c: char): (r: int)
    ensures -1 <= r < |s|
    ensures r >= 0 ==> s[r] == c
  {
    if |s| == 0 then -1
    else if s[|s| - 1] == c then |s| - 1
    else LastIndexOf(s[..|s| - 1], c)
  }

  lemma {:induction false} LastIndexOfJoin(x: string, c: char, y: string)
    requires c !in y
    ensures LastIndexOf(x + [c] + y, c) == |x|
  {
    if |y| > 0 {
      var s := x + [c] + y;
      assert s[|s| - 1] == y[|y| - 1];
      assert s[..|s| - 1] == x + [c] + y[..|y| - 1];
      LastIndexOfJoin(x, c, y[..|y| - 1]);
    }
  }

  /**
   * `x + sep + y` determines x and y when y never contains the separator:
   * the separator's last occurrence splits the string.
   */
  lemma SplitAtLastSeparator(x1: string, y1: string, x2: string, y2: string, sep: char)
    requires sep !in y1 && sep !in y2
    requires x1 + [sep] + y1 == x2 + [sep] + y2
    ensures x1 == x2 && y1 == y2
  {
    var s := x1 + [sep] + y1;
    LastIndexOfJoin(x1, sep, y1);
    LastIndexOfJoin(x2, sep, y2);
    assert x1 == s[..|x1|] && x2 == s[..|x2|];
    assert y1 == s[|x1| + 1..] && y2 == s[|x2| + 1..];
  }

  predicate IsDigit(c: char) {
    '0' <= c <= '9'
  }

  predicate AllDigits(s: string) {
    forall k :: 0 <= k < |s| ==> IsDigit(s[k])
  }

  /** The value of a string of decimal digits, most significant first. */
  function DigitsValue(s: string): nat
    requires AllDigits(s)
  {
    if |s| == 0 then 0
    else DigitsValue(s[..|s| - 1]) * 10 + (s[|s| - 1] as int - '0' as int)
  }

  /** Decimal digits read back as the number they print. */
  lemma {:induction false} DigitsValueOfNatToString(n: nat)
    ensures AllDigits(NatToString(n))
    ensures DigitsValue(NatToString(n)) == n
  {
    if n >= 10 {
      var s := NatToString(n);
      assert s[..|s| - 1] == NatToString(n / 10);
      DigitsValueOfNatToString(n / 10);
    }
  }

  /** The literals `int(s)` accepts here: an optional sign, then one or more decimal digits. */
  predicate IsIntLiteral(s: string) {
    (|s| >= 1 && AllDigits(s))
    || (|s| >= 2 && (s[0] == '-' || s[0] == '+') && AllDigits(s[1..]))
  }

  /**
   * `int(s)` for a string: the value of an integer literal; anything else is
   * None (Python raises `ValueError`).
   */
  function ParseInt(s: string): (r: Option<int>)
    ensures r.Some? <==> IsIntLiteral(s)
    ensures r.Some? && AllDigits(s) ==> r.value == DigitsValue(s)
    ensures r.Some? && !AllDigits(s) ==>
      r.value == (if s[0] == '-' then -(DigitsValue(s[1..]) as int) else DigitsValue(s[1..]))
  {
    if |s| >= 1 && AllDigits(s) then Some(DigitsValue(s))
    else if |s| >= 2 && (s[0] == '-' || s[0] == '+') && AllDigits(s[1..]) then
      var v: int := DigitsValue(s[1..]);
      Some(if s[0] == '-' then -v else v)
    else None
  }

  /** A leading zero does not change the value of a digit string. */
  lemma {:induction false} DigitsValueLeadingZero(t: string)
    requires AllDigits(t)
    ensures AllDigits("0" + t) && DigitsValue("0" + t) == DigitsValue(t)
  {
    var z := "0" + t;
    assert AllDigits(z) by {
      assert forall k :: 1 <= k < |z| ==> z[k] == t[k - 1];
    }
    if |t| > 0 {
      assert z[..|z| - 1] == "0" + t[..|t| - 1];
      assert z[|z| - 1] == t[|t| - 1];
      DigitsValueLeadingZero(t[..|t| - 1]);
    }
  }

  /** `int` ignores a plus sign and leading zeros: `int("+7") == int("007") == int("7")`. */
  lemma ParseIntIgnoresPlusAndZeros(t: string)
    requires |t| >= 1 && AllDigits(t)
    ensures ParseInt("+" + t) == ParseInt(t)
    ensures ParseInt("0" + t) == ParseInt(t)
    ensures ParseInt("-0" + t) == ParseInt("-" + t)
  {
    DigitsValueLeadingZero(t);
    var p := "+" + t;
    assert p[1..] == t && !IsDigit(p[0]);
    var m := "-0" + t;
    assert m[1..] == "0" + t && !IsDigit(m[0]);
    ParseNegative(t);
  }

  /** A minus sign followed by digits parses as the negated digits' value. */
  lemma ParseNegative(t: string)
    requires |t| >= 1 && AllDigits(t)
    ensures ParseInt("-" + t) == Some(0 - DigitsValue(t))
  {
    var s := "-" + t;
    assert s[1..] == t;
    assert !IsDigit(s[0]);
  }

  /** `int(str(n))` is n for a natural number. */
  lemma ParseNatToString(n: nat)
    ensures ParseInt(NatToString(n)) == Some(n)
  {
    DigitsValueOfNatToString(n);
  }

  /** `int(str(-n))` is -n for a positive n. */
  lemma ParseNegatedNatToString(n: nat)
    requires n >= 1
    ensures ParseInt("-" + NatToString(n)) == Some(0 - n)
  {
    DigitsValueOfNatToString(n);
    ParseNegative(NatToString(n));
  }

  /** `int(str(i)) == i`. */
  lemma {:induction false} ParseIntOfIntToString(i: int)
    ensures ParseInt(IntToString(i)) == Some(i)
  {
    if i < 0 {
      ParseNegatedNatToString(-i);
    } else {
      ParseNatToString(i);
    }
  }
}

=== FILE: wrappers.dfy ===
/** Failure-compatible result types shared by every module of the model. */
module Wrappers {

  /** Python's `None` or a value. */
  datatype Option<+T> = None | Some(value: T) {
    function GetOr(default: T): T {
      match this
      case Some(v) => v
      case None => default
    }
  }

  /** The outcome of a Python call that either returns a value or raises. */
  datatype Result<+R, +E> = Ok(value: R) | Err(error: E) {
    predicate IsFailure() {
      Err?
    }

    function PropagateFailure<U>(): Result<U, E>
      requires Err?
    {
      Err(error)
    }

    function Extract(): R
      requires Ok?
    {
      value
    }
  }

  /** The outcome of a Python call made for its effect: it returns, or it raises. */
  datatype Outcome<+E> = Pass | Fail(error: E)
}

/** The Python exceptions the modelled code raises or catches, with their messages. */
module Exceptions {

  datatype Exception =
    | ValueError(message: string)
    | KeyError(key: string)
    | AttributeError(attribute: string)
    | RuntimeError(message: string)
    /** `struct.error`, raised by `struct.pack` / `struct.unpack`. */
    | StructError(message: string)
    /** Any exception a service method or a deserializer raises, carried opaquely. */
    | Raised(message: string)
}
